=== FILE: README.md ===
# Docs-crawler frontier and CSV row-to-document construction

This project models two pieces of pure logic that sit inside two otherwise
I/O-heavy crawlers of a document ingestion system.

* **The docs crawler.** This part covers:
  * link resolution (`concat_url_and_href`, including the Spark-docs `index.html?` rewrite);
  * the six-clause link filter;
  * the breadth-first discovery loop `collect_urls`, with its FIFO queue and the crawl-wide `crawled_urls` and `ignored_urls` sets;
  * the sequential dispatch of every crawled URL to `UrlCrawlWorker.process`;
  * that call's return codes and metadata;
  * the `remove_old_content` reconciliation that deletes stale documents.
* **The CSV crawler's `index_dataframe`.** Its inner `index_df` turns a group of rows into one multi-segment document. It builds each row's text and metadata, the titles, the document title, and the document metadata, which hoists constant columns. The outer function names the documents after the group key, or chunks an ungrouped frame by row range.

The library calls the code depends on are modelled abstractly:

* `urljoin`, `urlparse(...).fragment`, the compiled regular expressions, the page fetch and the indexer's `index_url` are uninterpreted functions carried in datatypes. A call that raises is `None` or a dedicated constructor.
* A data frame is a sequence of rows. Each row maps a column name to a cell. A missing cell (pandas' NaN) is `None`.

Files:

| file | module | contents |
|---|---|---|
| `common.dfy` | `Common` | `Option`, `Result`, `NoDup`, `IsSubsequence` |
| `strings.dfy` | `Strings` | the Python `str` operations used: `startswith`, `endswith`, `in`, `replace`, `join`, `str(int)` |
| `links.dfy` | `Links` | `concat_url_and_href` and the link filter |
| `frontier.dfy` | `Frontier` | the discovery loop, the per-seed driver, the meta-refresh finding and its correction |
| `dispatch.dfy` | `Dispatch` | `process`, sequential dispatch, reconciliation, `crawl` |
| `table.dfy` | `Table` | rows, cells, row text, row and document metadata, `index_df` |
| `csv_index.dfy` | `CsvIndex` | document ids, `range`, chunking, `index_dataframe` |

## Where the code's behaviour is not what one would expect

The model follows the code in each of these cases:

* **Extensions.** One would expect the extension clause to look at the URL's path only. The code tests `abs_url.endswith(ext)` on the whole URL, so a URL with a query string escapes it, and `Links.Admissible` uses the whole URL.
* **Re-enqueueing.** One would expect a visited URL never to be queued again, and no URL to be fetched twice. The code records as crawled only the URL `get_url_content` returns. After an HTTP redirect followed by the session that is the requested URL. After a meta refresh it is the refresh target (crawlers/docs_crawler.py:69-70, 77). So a page whose meta refresh leads elsewhere is fetched again whenever a later page links back to it, and endlessly when the refresh target itself links back (see Findings). Separate seeds can also fetch the same URL again.
* **Queue and sets.** One would expect a queued URL never to be crawled or ignored already. A queued URL other than the seed is never ignored, but it can already be crawled: line 96 of crawlers/docs_crawler.py marks as crawled the URL a meta refresh lands on, and that URL may still be waiting in the queue. The seed is queued without a filter check, so it can also be ignored already. `Frontier.Bookkeeping` therefore claims nothing about crawled URLs in the queue and exempts the seed from the ignored-set rule.

## Model

| member | source | states |
|---|---|---|
| Links.SparkFix | crawlers/docs_crawler.py:50-51 | The result is `href.replace('index.html?', '/')` for every href, so the `in` guard changes nothing. The rewritten href never contains `index.html?`, and an href without the marker is returned unchanged. |
| Links.ConcatUrlAndHref | crawlers/docs_crawler.py:46-53 | An href starting with `http` comes back unchanged. Any other href is resolved by `urljoin` against the page URL. The string handed to `urljoin` is `href.replace('index.html?', '/')`: it never contains `index.html?`, and it is the href itself when the href has no marker. |
| Links.Classify | crawlers/docs_crawler.py:105-110 | A link is accepted exactly when all five URL clauses hold and it is not already ignored. The filter raises exactly when clauses (a)–(d) hold and computing the fragment raises. An ignored URL is always rejected. An empty positive-pattern list rejects every URL. |
| Links.ClassifyIgnoresCacheOfOtherUrls | crawlers/docs_crawler.py:108 | For a URL in neither ignored set, the verdict does not depend on which ignored set is current. |
| Strings.ReplaceAll | crawlers/docs_crawler.py:51 | `s.replace(pat, rep)` scans left to right without overlaps. A replacement no longer than the pattern never lengthens the string, and one of equal length keeps the length. A string starting with the pattern yields one starting with the replacement. |
| Strings.ReplaceRemovesPattern | crawlers/docs_crawler.py:51 | After `s.replace(pat, c)`, where the one character `c` does not occur in `pat`, `pat` no longer occurs. |
| Strings.ReplaceAbsentIsIdentity | crawlers/docs_crawler.py:50-51 | Replacing a pattern that does not occur leaves the string unchanged, so the `in` guard before `replace` changes no result. |
| Strings.NatToString | crawlers/csv_crawler.py:51 | `str(n)` for `n >= 0` is a non-empty string of decimal digits with no leading zero. |
| Strings.NatToStringValue | crawlers/csv_crawler.py:51 | The digits of `str(n)` read back as `n`. |
| Strings.IntToString | crawlers/csv_crawler.py:23 | `str(i)` is non-empty and starts with `-` exactly when `i` is negative. |
| Strings.IntToStringValue | crawlers/csv_crawler.py:23 | The digits of `str(i)`, after the sign, read back as the absolute value of `i`. |
| Strings.Join | crawlers/csv_crawler.py:23-44 | `sep.join(xs)` is empty for no elements and the element itself for one. Otherwise it starts with the first element, and its length is the elements' total length plus one separator between each neighbouring pair. |
| Strings.JoinSnoc | crawlers/csv_crawler.py:44 | Joining one more element appends one separator and that element. |
| Strings.JoinAvoidsChar | crawlers/csv_crawler.py:23 | A character found neither in the separator nor in any element is not in the joined string. |
| Frontier.ScanOne | crawlers/docs_crawler.py:100-115 | Handling one anchor raises exactly when resolving or classifying its href raises. An anchor without `href` changes nothing. A rejected URL is added to the ignored set and nothing else changes. An accepted URL is appended when it is neither crawled nor queued, and otherwise nothing changes. In every case the crawled set is unchanged, and an appended URL passes the filter. |
| Frontier.ScanLinks | crawlers/docs_crawler.py:99-120 | Scanning a page keeps the queue as a prefix and leaves the crawled set unchanged. The ignored set grows only by URLs that fail the filter. Every appended URL passes the filter and is neither crawled nor ignored. A queue without duplicates stays without duplicates. |
| Frontier.ScanLinksOnlyPageLinks | crawlers/docs_crawler.py:98-115 | Every URL a page scan appends to the queue or adds to the ignored set is the resolution of one of the page's anchors. |
| Frontier.ScanLinksHandles | crawlers/docs_crawler.py:100-117 | Every anchor up to the first one that could raise is dealt with: its URL ends up queued, crawled or ignored if it passes the filter, and ignored if it fails it. |
| Frontier.Step | crawlers/docs_crawler.py:89-115 | A failed fetch pops the URL and changes nothing else. A successful fetch adds exactly its final URL to the crawled set. The ignored set only grows, and only by URLs that fail the filter. The rest of the queue is kept in order. Appended URLs pass the filter and are neither crawled nor ignored. A queue without duplicates stays without duplicates. |
| Frontier.StepAddsOnlyPageLinks | crawlers/docs_crawler.py:98-115 | An iteration queues or ignores a URL only after a successful fetch, and only when one of the fetched page's anchors resolves to it. |
| Frontier.StepScansPage | crawlers/docs_crawler.py:93-117 | After an iteration whose fetch succeeded, every anchor of the fetched page up to the first one that could raise is dealt with: its URL is queued, crawled or ignored if it passes the filter, and ignored if it fails it. |
| Frontier.Run | crawlers/docs_crawler.py:83 | The `while len(new_urls)` loop, cut off after `fuel` iterations: an empty queue ends it at once, and the crawled and ignored sets only grow. |
| Frontier.RunMoreFuel | crawlers/docs_crawler.py:83 | Once the loop has drained, more fuel gives the same state, so a drained run is the run of the unbounded loop. |
| Frontier.StepKeeps | crawlers/docs_crawler.py:83-120 | One loop iteration preserves the invariant: sets only grow; crawled URLs are fetch results; newly ignored URLs fail the filter; the queue has no duplicates; every queued URL except the seed passes the filter and is not ignored. |
| Frontier.Iterate | crawlers/docs_crawler.py:83-120 | The loop, run for at most `fuel` iterations, computes exactly `Run` and keeps the bookkeeping invariant. |
| Frontier.CollectUrls | crawlers/docs_crawler.py:79-120 | The loop run with a fuel bound meets the same invariant as `StepKeeps`. It reports drained exactly when the queue is empty. |
| Frontier.RunSeeds | crawlers/docs_crawler.py:123-137 | Running the seeds one after another, each from the sets the previous one left, only grows the sets. A seed whose loop does not drain stops the run there. |
| Frontier.RunSeedsMoreFuel | crawlers/docs_crawler.py:136-137 | When every seed's loop drains, more fuel gives the same sets and flag. |
| Frontier.CollectAll | crawlers/docs_crawler.py:123-137 | Starting from empty sets, the result is exactly that of running the seeds one after another, including whether all of them drained. Every crawled URL is the final URL of some fetch, and every ignored URL fails the filter. |
| Frontier.RedirectLoopNeverDrains | crawlers/docs_crawler.py:89-113 | Take a page whose meta refresh leads to another URL that links back to it. Every iteration after the first returns the loop to the same state, with the page queued again. |
| Frontier.RunFixedPoint | crawlers/docs_crawler.py:83 | A state the loop maps to itself stays unchanged for any number of iterations. |
| Frontier.RedirectCrawlNeverDrains | crawlers/docs_crawler.py:136-137 | A crawl seeded with that page never finishes discovery, whatever the fuel. |
| Frontier.RedirectGuardedDrains | crawlers/docs_crawler.py:89-113 | On the same two-page site, which is finite, the corrected loop from the same seed empties its queue. |
| Frontier.GuardedStep | crawlers/docs_crawler.py:89-96 | Corrected iteration: a URL already requested is popped without a fetch. Otherwise it is recorded as requested and handled as the original iteration would. |
| Frontier.RunGuarded | crawlers/docs_crawler.py:83-96 | If only a finite set of URLs can pass the filter, the corrected loop empties its queue. |
| Frontier.GuardedStepKeeps | crawlers/docs_crawler.py:83-120 | A corrected iteration preserves the loop invariant. It either requests a URL never requested before or shortens the queue. |
| Frontier.CollectUrlsGuarded | crawlers/docs_crawler.py:79-120 | With no fuel, the corrected `collect_urls` drains its queue. It keeps the set and fetch guarantees of the loop as written. |
| Dispatch.Process | crawlers/docs_crawler.py:23-42 | The return code is -1 for a missing URL (with no indexer call) or an indexer that raised. Otherwise it is 0, even when the indexer reports failure. The indexer receives metadata whose keys are exactly `source` and `url`, with the crawl's source and the URL as values. |
| Dispatch.DispatchSequential | crawlers/docs_crawler.py:160-165 | Every crawled URL is processed exactly once, with the same source, and each call's recorded status is what `process` returns for it. |
| Dispatch.DocsToRemove | crawlers/docs_crawler.py:171 | A listed document is selected exactly when it has a non-empty URL that was not crawled. A stale document is selected as many times as it is listed. The selection keeps listing order. |
| Dispatch.DeleteEach | crawlers/docs_crawler.py:172-174 | Deletes are issued by id, in order, one per selected document, until one of them raises. None but the last raised. The loop ends early exactly when some selected id's delete raises. |
| Dispatch.Reconcile | crawlers/docs_crawler.py:169-174 | Without the flag nothing is deleted. With it, the ids of the stale documents are deleted in listing order, stopping right after the first delete that raises. |
| Dispatch.DeletedIdsAreStaleIds | crawlers/docs_crawler.py:171-174 | An id is selected for deletion exactly when it belongs to a listed document with a non-empty URL that was not crawled. A document whose URL was crawled is never selected, unless a stale document shares its id. |
| Dispatch.DeletedPrefixIsStale | crawlers/docs_crawler.py:171-174 | Even when a delete raises part way, every id deleted so far is the id of a listed stale document. |
| Dispatch.Crawl | crawlers/docs_crawler.py:122-174 | Dispatch and deletion happen exactly when every seed's loop drained. The crawled set is then exactly the one discovery produced, and every crawled URL is a fetch result. Each URL is processed exactly once with the configured source. Deletion goes through the stale documents' ids in order until a delete raises, and it only ever hits stale documents. |
| Table.Truthy | crawlers/csv_crawler.py:22-23 | A cell is falsy exactly when it is the empty string or zero. A missing cell (NaN) is truthy. |
| Table.Render | crawlers/csv_crawler.py:22-23 | `str(x)` is empty exactly for the empty string, so every truthy cell renders non-empty. A missing cell renders as `nan`. |
| Table.TextPieces | crawlers/csv_crawler.py:23 | There is at most one piece per text column. There are no pieces exactly when every text cell is falsy. |
| Table.TextPiecesAreTruthyCells | crawlers/csv_crawler.py:23 | Every piece is the rendering of a truthy text cell. |
| Table.RowText | crawlers/csv_crawler.py:23-24 | A row's text is non-empty and ends in a newline. |
| Table.RowTextOfBlankRow | crawlers/csv_crawler.py:23 | A row with no truthy text cell yields just `"\n"`. |
| Table.RowTextConsColumn | crawlers/csv_crawler.py:23 | A falsy cell in a leading text column adds nothing. A truthy one puts its rendering first, followed by ` - ` when other pieces follow. |
| Table.RowTextHasOneNewline | crawlers/csv_crawler.py:23 | When no cell renders with a newline, the trailing newline is the only one in the text. |
| Table.RowMetadata | crawlers/csv_crawler.py:25 | Row metadata holds exactly the metadata columns whose cell is present, each with that cell's value. |
| Table.HoistedIffConstant | crawlers/csv_crawler.py:32 | The `unique()`-count test holds exactly when the column has one and the same non-missing value in every row. |
| Table.DocMetadata | crawlers/csv_crawler.py:30-33 | `source` is always present. Any other key is present exactly when it names a metadata column constant over the frame, with that constant value. `source` is `csv` unless a constant metadata column named `source` overrides it. |
| Table.CollectTexts | crawlers/csv_crawler.py:20-24 | There is one text per row, in row order. |
| Table.CollectTitles | crawlers/csv_crawler.py:20-22 | There is one rendered title per row when a title column is set, and none otherwise. |
| Table.CollectMetadatas | crawlers/csv_crawler.py:20-26 | There is one metadata map per row, in row order. |
| Table.IndexDf | crawlers/csv_crawler.py:16-36 | The submitted document has the given id, one text and one metadata map per row, and per-row titles only when a title column is set and there is a row (otherwise `None`). Its title is the first row's title, or else the id. Its metadata is the hoisted document metadata. |
| CsvIndex.NonEmpty | crawlers/csv_crawler.py:44 | Keeps exactly the non-empty parts, in their original order. |
| CsvIndex.NonEmptyOfBlank | crawlers/csv_crawler.py:44 | A tuple of empty parts keeps nothing. |
| CsvIndex.NonEmptySnoc | crawlers/csv_crawler.py:44 | Appending a part appends it to the kept parts exactly when it is non-empty. |
| CsvIndex.DocId | crawlers/csv_crawler.py:41-44 | A string group key is the document id verbatim. |
| CsvIndex.DocIdSingleAndEmptyTuples | crawlers/csv_crawler.py:41-44 | A one-part tuple with a non-empty part gives the same id as the bare string. An all-empty tuple gives the empty id. |
| CsvIndex.DocIdTupleSnoc | crawlers/csv_crawler.py:44 | An extra empty key part leaves the id unchanged. An extra non-empty part appends ` - ` and the part, or is the whole id when every earlier part is empty. |
| CsvIndex.RangeFrom | crawlers/csv_crawler.py:49 | `range(start, stop, step)` for a non-zero step: element `k` is `start + k*step`, every element lies on the correct side of `stop`, and the next value after the last is not, so every value before `stop` is produced. |
| CsvIndex.PyRange | crawlers/csv_crawler.py:49 | `range` fails exactly for a zero step. |
| CsvIndex.SingleStride | crawlers/csv_crawler.py:47-49 | When the step is at least the positive length, `range(0, len, step)` yields only 0. |
| CsvIndex.ChunkSize | crawlers/csv_crawler.py:47-48 | The chunk size is at least the frame's length and at least the configured size, and equals one of them. |
| CsvIndex.Slice | crawlers/csv_crawler.py:50 | `df[lo:lo+size]` with Python's slice rules is a contiguous run of rows starting at `lo`. It is exactly rows `lo` to `lo + size - 1` when the stop lies in the frame, runs to the end when the stop is past it, is empty when the stop lies between 0 and `lo`, and counts a negative stop from the end of the frame. |
| CsvIndex.IndexNamed | crawlers/csv_crawler.py:40-45 | One document per named sub-frame, in order, each as `index_df` builds it. |
| CsvIndex.IndexGroups | crawlers/csv_crawler.py:38-45 | One document per group, in group order, named by the group key's id. |
| CsvIndex.IndexChunks | crawlers/csv_crawler.py:49-52 | Fails exactly for a zero chunk size. Otherwise there is one document per chunk start. Each document covers the rows `df[start:start+size]` and is named `rows start-(start+size-1)`. |
| CsvIndex.IndexDataframe | crawlers/csv_crawler.py:38-52 | With id columns: one document per group. Without them, a non-empty frame gives exactly one document over all its rows, named `rows 0-(size-1)`. An empty frame gives no document, and fails exactly when the configured chunk size is not positive. |

## Left out

- HTTP fetching, the meta-refresh follow in `get_url_content`, retries and HTML parsing: these are network I/O. A fetch is the abstract `Env.fetch`. It returns the final URL (the refresh target after a meta refresh, the requested URL otherwise) and the anchors' `href` values, or nothing.
- The semantics of `urljoin`, `urlparse(...).fragment` and `re.match` belong to foreign libraries. They are uninterpreted functions, with `None` standing for a `ValueError`.
- The `RateLimiter`, session creation and the contents of `binary_extensions` come from a utility module that is not part of this model and depend on timing. The extension list is an opaque parameter of `LinkFilter`.
- The Ray actor-pool dispatch and the `psutil` core count are parallelism. Only the sequential branch is modelled. It runs whenever `ray_workers` is not positive once -1 has been replaced by the core count, so for 0 and for every negative value except -1.
- Dispatch.Process: the `html_processing` argument handed to `index_url` is configuration passed through unchanged to a foreign call. It is not part of `IndexUrlRequest`.
- Logging, progress messages, the crawl-report files and configuration loading are output or glue only.
- The iteration order of a Python `set` is unspecified. `DispatchSequential` picks URLs in an arbitrary order and states only order-independent facts.
- The document listing (`_list_docs`) raising is not modelled, and neither is a listed document lacking a `url` key. `Doc.url` is `None` for a document listed without a URL.
- `unicodedata.normalize('NFD', ...)` depends on Unicode tables and is taken as the identity.
- Floating-point cells and the dtype upcasting done by `iterrows` are not modelled. Numeric cells are integers, rendered with `str(int)`.
- pandas file reading, the file-type dispatch in `CsvCrawler.crawl`, and the internals of `groupby` are not modelled. Groups are given as a partition, in `groupby`'s order.
- A tuple group key's parts are modelled as strings. Their truthiness is "non-empty", which is what the key columns yield once converted to strings.
- The Jira crawler is a REST pagination loop against a live service. It is not part of this model.
- Frontier.CollectUrls: termination of `collect_urls` does not hold in general, so the loop as written runs under a fuel bound. Its contract speaks of the state after at most `fuel` iterations.
- Frontier.CollectAll: under the same fuel bound, a seed whose loop has not drained stops discovery and is reported through `drained`. `RunSeedsMoreFuel` shows that a drained result does not depend on the fuel.
- Dispatch.Crawl: a crawl whose discovery does not drain within the fuel yields `None`, which stands for a `crawl()` still inside `collect_urls`. Nothing is said about such a run.
- Frontier.ScanLinksHandles: an anchor counts as dealt with only when it and every earlier anchor are `Safe`, a condition that does not depend on the ignored set. An anchor that cannot raise only because its URL is already ignored is not covered.
- Dispatch.Reconcile: `delete_doc` raising is modelled through a predicate on the id. Which ids make the indexer raise is outside the model.

## Findings

| source | as written | input that shows it | evidently intended | confidence | as-written member | corrected member |
|---|---|---|---|---|---|---|
| crawlers/docs_crawler.py:89-113 | Only the URL `get_url_content` returns enters `crawled_urls`, and after a meta refresh that is the refresh target. The popped URL itself is then never recorded, so a link back to it passes the `not in crawled_urls and not in new_urls` test again. | Seed `http://x`, whose page carries a meta refresh to `http://y`; `http://y` has one link back to `http://x`; the filter accepts exactly these two URLs. (An HTTP 3xx redirect does not trigger this: `get_url_content` then returns the requested URL.) The queue is `[http://x]` again after every iteration, and the loop never ends. | Each URL is requested at most once, and a finite site is crawled in finitely many steps. | not executed | Frontier.RedirectLoopNeverDrains | Frontier.CollectUrlsGuarded, Frontier.RedirectGuardedDrains |

=== FILE: common.dfy ===
/** Failure-carrying datatypes shared by the crawler models. */
module Common {

  /** A value that may be absent: Python's `None`, or a call that raised. */
  datatype Option<+T> = None | Some(value: T)

  /** The outcome of an operation that can fail with an error value. */
  datatype Result<+T, +E> = Ok(value: T) | Err(error: E)

  /** No element occurs twice in `s`. */
  predicate NoDup<T(==)>(s: seq<T>)
  {
    forall i, j :: 0 <= i < j < |s| ==> s[i] != s[j]
  }

  /** `sub` is obtained from `s` by deleting some elements, keeping the order of the rest. */
  predicate IsSubsequence<T(==)>(sub: seq<T>, s: seq<T>)
    decreases |s|
  {
    if |sub| == 0 then true
    else if |s| == 0 then false
    else if sub[0] == s[0] then IsSubsequence(sub[1..], s[1..])
    else IsSubsequence(sub, s[1..])
  }
}

=== FILE: csv_index.dfy ===
/** `CsvCrawler.index_dataframe`: one document per group of rows when
    document-id columns are configured, otherwise documents over chunks of
    consecutive rows. */
module CsvIndex {
  import opened Common
  import opened Strings
  import opened Table

  /** A `groupby` key: a plain string, or a tuple of the (string-typed) key
      column values. */
  datatype GroupKey = Scalar(s: string) | Tuple(parts: seq<string>)

  /** `[x for x in parts if x]` */
  function NonEmpty(parts: seq<string>): (r: seq<string>)
    ensures forall p :: p in r <==> p in parts && p != ""
    ensures IsSubsequence(r, parts)
    decreases |parts|
  {
    if |parts| == 0 then []
    else if parts[0] != "" then [parts[0]] + NonEmpty(parts[1..])
    else
      var r := NonEmpty(parts[1..]);
      assert |r| > 0 ==> r[0] in r;
      r
  }

  /** A tuple of empty parts keeps nothing. */
  lemma {:induction false} NonEmptyOfBlank(parts: seq<string>)
    requires forall i :: 0 <= i < |parts| ==> parts[i] == ""
    ensures NonEmpty(parts) == []
    decreases |parts|
  {
    if |parts| > 0 {
      NonEmptyOfBlank(parts[1..]);
    }
  }

  /** The document id of a group: a string key verbatim, a tuple key as its
      non-empty parts joined with ` - `. */
  function DocId(key: GroupKey): (r: string)
    ensures key.Scalar? ==> r == key.s
  {
    match key
    case Scalar(s) => s
    case Tuple(parts) => Join(NonEmpty(parts), " - ")
  }

  /** A one-part tuple with a non-empty part names the group as the bare
      string would; an all-empty tuple gives the empty id. */
  lemma DocIdSingleAndEmptyTuples(s: string, parts: seq<string>)
    ensures s != "" ==> DocId(Tuple([s])) == DocId(Scalar(s)) == s
    ensures (forall i :: 0 <= i < |parts| ==> parts[i] == "") ==> DocId(Tuple(parts)) == ""
  {
    if s != "" {
      assert NonEmpty([s]) == [s] by {
        assert [s][1..] == [];
      }
    }
    if forall i :: 0 <= i < |parts| ==> parts[i] == "" {
      NonEmptyOfBlank(parts);
    }
  }

  /** Appending a non-empty part to a tuple key that already names something
      appends ` - ` and that part to the id; an empty part changes nothing. */
  lemma {:induction false} DocIdTupleSnoc(parts: seq<string>, p: string)
    ensures p == "" ==> DocId(Tuple(parts + [p])) == DocId(Tuple(parts))
    ensures p != "" && |NonEmpty(parts)| > 0 ==>
      DocId(Tuple(parts + [p])) == DocId(Tuple(parts)) + " - " + p
    ensures p != "" && |NonEmpty(parts)| == 0 ==> DocId(Tuple(parts + [p])) == p
  {
    NonEmptySnoc(parts, p);
    if p == "" {
      assert NonEmpty(parts + [p]) == NonEmpty(parts);
    } else if |NonEmpty(parts)| > 0 {
      assert NonEmpty(parts + [p]) == NonEmpty(parts) + [p];
      JoinSnoc(NonEmpty(parts), p, " - ");
    } else {
      assert NonEmpty(parts + [p]) == [p];
    }
  }

  lemma {:induction false} NonEmptySnoc(parts: seq<string>, p: string)
    ensures NonEmpty(parts + [p]) == NonEmpty(parts) + (if p != "" then [p] else [])
    decreases |parts|
  {
    if |parts| == 0 {
      assert [p][1..] == [];
    } else {
      assert (parts + [p])[1..] == parts[1..] + [p];
      NonEmptySnoc(parts[1..], p);
    }
  }

  /** `range(start, stop, step)` for a non-zero step. */
  function RangeFrom(start: int, stop: int, step: int): (r: seq<int>)
    requires step != 0
    ensures step > 0 ==> forall k :: 0 <= k < |r| ==> start <= r[k] < stop
    ensures step < 0 ==> forall k :: 0 <= k < |r| ==> stop < r[k] <= start
    ensures |r| > 0 ==> r[0] == start
    ensures forall k :: 0 <= k < |r| ==> r[k] == start + k * step
    ensures step > 0 ==> if |r| == 0 then start >= stop else r[|r| - 1] + step >= stop
    ensures step < 0 ==> if |r| == 0 then start <= stop else r[|r| - 1] + step <= stop
    decreases if step > 0 then stop - start else start - stop
  {
    if (step > 0 && start >= stop) || (step < 0 && start <= stop) then []
    else
      var rest := RangeFrom(start + step, stop, step);
      var r := [start] + rest;
      assert |rest| > 0 ==> r[|r| - 1] == rest[|rest| - 1];
      assert forall k :: 1 <= k < |r| ==> r[k] == start + k * step by {
        forall k | 1 <= k < |r| ensures r[k] == start + k * step {
          assert r[k] == rest[k - 1] == start + step + (k - 1) * step;
          assert (k - 1) * step + step == k * step;
        }
      }
      r
  }

  /** `range` refuses a zero step. */
  datatype TableError = ZeroStep

  /** `range(start, stop, step)`, which raises `ValueError` on a zero step. */
  function PyRange(start: int, stop: int, step: int): (r: Result<seq<int>, TableError>)
    ensures r.Err? <==> step == 0
  {
    if step == 0 then Err(ZeroStep) else Ok(RangeFrom(start, stop, step))
  }

  /** A step at least as long as the whole span yields the start alone. */
  lemma SingleStride(stop: int, step: int)
    requires 0 < stop <= step
    ensures RangeFrom(0, stop, step) == [0]
  {
  }

  /** `max(rows_per_chunk, len(df))`: the chunk size after the code raises
      it to the frame's length. */
  function ChunkSize(rowsPerChunk: int, rows: nat): (size: int)
    ensures size >= rows && size >= rowsPerChunk
    ensures size == rows || size == rowsPerChunk
  {
    if rowsPerChunk < rows then rows else rowsPerChunk
  }

  /** The `rows {inx}-{inx+rows_per_chunk-1}` label of a chunk. */
  function ChunkName(start: int, size: int): string
  {
    "rows " + IntToString(start) + "-" + IntToString(start + size - 1)
  }

  /** `df[lo:lo+size]` with Python's slice rules: a stop past the end is
      clipped to the end, a negative stop counts from the end (and is
      clipped to 0), and a stop at or before `lo` gives no rows. */
  function Slice(frame: Frame, lo: nat, size: int): (sub: Frame)
    requires lo <= |frame|
    ensures |sub| <= |frame| - lo
    ensures forall i :: 0 <= i < |sub| ==> sub[i] == frame[lo + i]
    ensures lo + size >= |frame| ==> sub == frame[lo..]
    ensures 0 <= size && lo + size <= |frame| ==> sub == frame[lo..lo + size]
    ensures size < 0 && lo + size >= 0 ==> sub == []
    ensures lo + size < 0 ==> |sub| == if |frame| + size > 0 then |frame| + size else 0
  {
    var stop := lo + size;
    var end := if stop < 0 then (if stop + |frame| < 0 then 0 else stop + |frame|)
               else if stop > |frame| then |frame| else stop;
    if end <= lo then [] else frame[lo..end]
  }

  /** A slice of a frame carrying every configured column carries them too. */
  lemma SliceCovers(frame: Frame, cols: Columns, lo: nat, size: int)
    requires Covers(frame, cols) && lo <= |frame|
    ensures Covers(Slice(frame, lo, size), cols)
  {
  }

  /** Calls `index_df` once per named sub-frame, in order. */
  method IndexNamed(cols: Columns, named: seq<(string, Frame)>) returns (docs: seq<Segments>)
    requires forall g :: 0 <= g < |named| ==> Covers(named[g].1, cols)
    ensures |docs| == |named|
    ensures forall g :: 0 <= g < |named| ==> Describes(docs[g], cols, named[g].0, named[g].1)
  {
    docs := [];
    var g := 0;
    while g < |named|
      invariant g <= |named|
      invariant |docs| == g
      invariant forall m :: 0 <= m < g ==> Describes(docs[m], cols, named[m].0, named[m].1)
    {
      var doc := IndexDf(cols, named[g].0, named[g].1);
      ghost var before := docs;
      docs := docs + [doc];
      assert forall m :: 0 <= m < g ==> docs[m] == before[m];
      g := g + 1;
    }
  }

  /** The named chunks `(f'rows {inx}-{inx+size-1}', df[inx: inx+size])` for
      the given chunk starts. */
  function Chunks(frame: Frame, size: int, starts: seq<int>): (r: seq<(string, Frame)>)
    requires forall j :: 0 <= j < |starts| ==> 0 <= starts[j] <= |frame|
    ensures |r| == |starts|
    ensures forall j :: 0 <= j < |starts| ==> r[j] == (ChunkName(starts[j], size), Slice(frame, starts[j], size))
  {
    seq(|starts|, j requires 0 <= j < |starts| => (ChunkName(starts[j], size), Slice(frame, starts[j], size)))
  }

  /** The chunked path: one document per start of `range(0, len(df), size)`. */
  method IndexChunks(cols: Columns, frame: Frame, size: int) returns (r: Result<seq<Segments>, TableError>)
    requires Covers(frame, cols)
    ensures r.Err? <==> size == 0
    ensures r.Ok? ==>
      var starts := RangeFrom(0, |frame|, size);
      && |r.value| == |starts|
      && forall j :: 0 <= j < |starts| ==>
           0 <= starts[j] < |frame|
           && Describes(r.value[j], cols, ChunkName(starts[j], size), Slice(frame, starts[j], size))
  {
    var range := PyRange(0, |frame|, size);
    if range.Err? {
      return Err(range.error);
    }
    var starts := range.value;
    assert forall j :: 0 <= j < |starts| ==> 0 <= starts[j] < |frame|;
    var named := Chunks(frame, size, starts);
    forall g | 0 <= g < |named| ensures Covers(named[g].1, cols) {
      SliceCovers(frame, cols, starts[g], size);
    }
    var docs := IndexNamed(cols, named);
    forall j | 0 <= j < |starts|
      ensures Describes(docs[j], cols, ChunkName(starts[j], size), Slice(frame, starts[j], size))
    {
      assert named[j] == (ChunkName(starts[j], size), Slice(frame, starts[j], size));
    }
    r := Ok(docs);
  }

  /** The grouped path: one document per group, named by its key, in the
      order `groupby` yields the groups. */
  method IndexGroups(cols: Columns, groups: seq<(GroupKey, Frame)>) returns (docs: seq<Segments>)
    requires forall g :: 0 <= g < |groups| ==> Covers(groups[g].1, cols)
    ensures |docs| == |groups|
    ensures forall g :: 0 <= g < |groups| ==> Describes(docs[g], cols, DocId(groups[g].0), groups[g].1)
  {
    var named := seq(|groups|, g requires 0 <= g < |groups| => (DocId(groups[g].0), groups[g].1));
    docs := IndexNamed(cols, named);
  }

  /** `index_dataframe`. With document-id columns, the frame's `groupby`
      partition `groups` is taken as given. Without them the chunk size is
      raised to at least the frame's length, so a non-empty frame becomes
      exactly one document over all its rows, and an empty one none at all,
      or a `ValueError` from `range` when the configured size is not positive
      (it is then raised to the frame's length, 0). */
  method IndexDataframe(cols: Columns, docIdColumns: seq<string>, frame: Frame,
                        groups: seq<(GroupKey, Frame)>, rowsPerChunk: int)
    returns (r: Result<seq<Segments>, TableError>)
    requires Covers(frame, cols)
    requires forall g :: 0 <= g < |groups| ==> Covers(groups[g].1, cols)
    ensures |docIdColumns| > 0 ==>
      && r.Ok?
      && |r.value| == |groups|
      && forall g :: 0 <= g < |groups| ==> Describes(r.value[g], cols, DocId(groups[g].0), groups[g].1)
    ensures |docIdColumns| == 0 && |frame| > 0 ==>
      && r.Ok?
      && |r.value| == 1
      && Describes(r.value[0], cols, ChunkName(0, ChunkSize(rowsPerChunk, |frame|)), frame)
    ensures |docIdColumns| == 0 && |frame| == 0 ==>
      && (r.Err? <==> rowsPerChunk <= 0)
      && (r.Ok? ==> r.value == [])
  {
    if |docIdColumns| > 0 {
      var docs := IndexGroups(cols, groups);
      return Ok(docs);
    }
    var size := ChunkSize(rowsPerChunk, |frame|);
    r := IndexChunks(cols, frame, size);
    if |frame| > 0 {
      SingleStride(|frame|, size);
      assert Slice(frame, 0, size) == frame;
      assert r.Ok? && |r.value| == 1;
      assert Describes(r.value[0], cols, ChunkName(0, size), Slice(frame, 0, size));
    } else if size != 0 {
      assert RangeFrom(0, 0, size) == [];
    }
  }
}

=== FILE: dispatch.dfy ===
/** The docs crawler after discovery: `UrlCrawlWorker.process`, the
    sequential dispatch over the crawled URLs, and the removal of stale
    documents (`crawl()` in the docs crawler). */
module Dispatch {
  import opened Common
  import opened Links
  import opened Frontier

  /** What the indexer's `index_url` call did: returned a (truthy or falsy)
      result, or raised. */
  datatype IndexOutcome = Indexed(succeeded: bool) | IndexRaised

  /** The arguments of one `index_url` call. */
  datatype IndexUrlRequest = IndexUrlRequest(url: Url, metadata: map<string, string>)

  /** The status `process` returns, and the indexer call it made, if any. */
  datatype ProcessResult = ProcessResult(code: int, request: Option<IndexUrlRequest>)

  /** `UrlCrawlWorker.process(url, source)`: -1 for a missing URL or an indexer
      that raised, 0 otherwise, whatever the indexer returned. The indexer
      sees metadata holding exactly the source and the URL. */
  function Process(url: Option<Url>, source: string, indexUrl: IndexUrlRequest -> IndexOutcome): (r: ProcessResult)
    ensures r.code == 0 || r.code == -1
    ensures url.None? ==> r.code == -1 && r.request.None?
    ensures url.Some? ==>
      && r.request.Some?
      && r.request.value.url == url.value
      && r.request.value.metadata.Keys == {"source", "url"}
      && r.request.value.metadata["source"] == source
      && r.request.value.metadata["url"] == url.value
    ensures r.code == 0 <==> url.Some? && indexUrl(r.request.value).Indexed?
  {
    match url
    case None => ProcessResult(-1, None)
    case Some(u) =>
      var request := IndexUrlRequest(u, map["source" := source, "url" := u]);
      match indexUrl(request)
      case IndexRaised => ProcessResult(-1, Some(request))
      case Indexed(_) => ProcessResult(0, Some(request))
  }

  /** One `process` call made by the dispatcher, with its status. */
  datatype Dispatched = Dispatched(url: Url, source: string, code: int)

  /** The sequential branch, taken whenever `ray_workers` is not positive once
      -1 has been replaced by the core count: one worker processes every crawled URL,
      in the set's (unspecified) iteration order. Each URL is processed
      exactly once with the crawl's source, whatever earlier calls returned. */
  method DispatchSequential(urls: set<Url>, source: string, indexUrl: IndexUrlRequest -> IndexOutcome)
    returns (log: seq<Dispatched>)
    ensures |log| == |urls|
    ensures forall i :: 0 <= i < |log| ==>
      && log[i].url in urls
      && log[i].source == source
      && log[i].code == Process(Some(log[i].url), source, indexUrl).code
    ensures forall u :: u in urls ==> exists i :: 0 <= i < |log| && log[i].url == u
    ensures forall i, j :: 0 <= i < j < |log| ==> log[i].url != log[j].url
  {
    var remaining := urls;
    log := [];
    while remaining != {}
      invariant remaining <= urls
      invariant |log| + |remaining| == |urls|
      invariant forall i :: 0 <= i < |log| ==>
        && log[i].url in urls && log[i].url !in remaining
        && log[i].source == source
        && log[i].code == Process(Some(log[i].url), source, indexUrl).code
      invariant forall u :: u in urls && u !in remaining ==> exists i :: 0 <= i < |log| && log[i].url == u
      invariant forall i, j :: 0 <= i < j < |log| ==> log[i].url != log[j].url
      decreases |remaining|
    {
      var u :| u in remaining;
      var result := Process(Some(u), source, indexUrl);
      ghost var before := log;
      log := log + [Dispatched(u, source, result.code)];
      assert log[|log| - 1].url == u;
      assert forall i :: 0 <= i < |before| ==> log[i] == before[i];
      remaining := remaining - {u};
    }
  }

  /** An entry of the indexer's document listing; `url` is `None` when the
      listing has none for it. */
  datatype Doc = Doc(id: string, url: Option<string>)

  /** `t['url']` is truthy. */
  predicate HasUrl(d: Doc)
  {
    d.url.Some? && d.url.value != ""
  }

  /** A listed document whose URL was not crawled this time. */
  predicate Stale(d: Doc, crawled: set<Url>)
  {
    HasUrl(d) && d.url.value !in crawled
  }

  /** `docs_to_remove`: the stale documents, in listing order, each as often
      as the listing holds it. */
  function DocsToRemove(existing: seq<Doc>, crawled: set<Url>): (r: seq<Doc>)
    ensures forall d :: d in r <==> d in existing && Stale(d, crawled)
    ensures forall d :: multiset(r)[d] == if Stale(d, crawled) then multiset(existing)[d] else 0
    ensures IsSubsequence(r, existing)
    decreases |existing|
  {
    if |existing| == 0 then []
    else
      assert existing == [existing[0]] + existing[1..];
      if Stale(existing[0], crawled) then [existing[0]] + DocsToRemove(existing[1..], crawled)
      else DocsToRemove(existing[1..], crawled)
  }

  /** The ids of `docs`, in order. */
  function Ids(docs: seq<Doc>): (r: seq<string>)
    ensures |r| == |docs| && forall i :: 0 <= i < |docs| ==> r[i] == docs[i].id
  {
    seq(|docs|, i requires 0 <= i < |docs| => docs[i].id)
  }

  /** `delete_doc` was called on `deleted`, in order, while working through
      `ids`; `raised` tells whether the last call raised. The calls follow
      `ids` from the start, none but the last raised, and they stop only at
      a call that raised or at the end of `ids`. */
  predicate DeletesUntilRaise(ids: seq<string>, raises: string -> bool, deleted: seq<string>, raised: bool)
  {
    && |deleted| <= |ids| && deleted == ids[..|deleted|]
    && (forall i :: 0 <= i < |deleted| - 1 ==> !raises(deleted[i]))
    && (raised <==> |deleted| > 0 && raises(deleted[|deleted| - 1]))
    && (!raised ==> |deleted| == |ids|)
  }

  /** The `for doc in docs_to_remove` loop: `delete_doc` on each id, in
      order. Its `if doc['url']` re-check always passes on stale documents.
      `raises(id)` says that `delete_doc(id)` raises, which ends `crawl()`
      with the rest of the list untouched. */
  method DeleteEach(toRemove: seq<Doc>, raises: string -> bool) returns (deleted: seq<string>, raised: bool)
    requires forall i :: 0 <= i < |toRemove| ==> HasUrl(toRemove[i])
    ensures DeletesUntilRaise(Ids(toRemove), raises, deleted, raised)
    ensures !raised <==> forall i :: 0 <= i < |toRemove| ==> !raises(toRemove[i].id)
  {
    var ids := Ids(toRemove);
    deleted, raised := [], false;
    var k := 0;
    while k < |toRemove| && !raised
      invariant k <= |toRemove| && |deleted| == k
      invariant deleted == ids[..k]
      invariant forall i :: 0 <= i < k - 1 ==> !raises(deleted[i])
      invariant raised <==> k > 0 && raises(deleted[k - 1])
    {
      if HasUrl(toRemove[k]) {
        deleted := deleted + [toRemove[k].id];
        raised := raises(toRemove[k].id);
      }
      k := k + 1;
    }
    assert raised ==> !(forall i :: 0 <= i < |toRemove| ==> !raises(toRemove[i].id)) by {
      if raised {
        assert toRemove[k - 1].id == deleted[k - 1];
      }
    }
  }

  /** The `remove_old_content` step: when enabled, `delete_doc` is called on
      the ids of the stale documents, in listing order, until one call
      raises; nothing else is deleted. */
  method Reconcile(removeOldContent: bool, existing: seq<Doc>, crawled: set<Url>, raises: string -> bool)
    returns (deleted: seq<string>, raised: bool)
    ensures !removeOldContent ==> deleted == [] && !raised
    ensures removeOldContent ==> DeletesUntilRaise(Ids(DocsToRemove(existing, crawled)), raises, deleted, raised)
  {
    if !removeOldContent {
      return [], false;
    }
    var toRemove := DocsToRemove(existing, crawled);
    assert forall i :: 0 <= i < |toRemove| ==> toRemove[i] in toRemove;
    deleted, raised := DeleteEach(toRemove, raises);
  }

  /** An id is selected for deletion exactly when it is the id of a listed
      document with a non-empty URL that was not crawled: no crawled
      document's id is selected unless a stale document shares it. Which of
      the selected ids are actually deleted is `DeletesUntilRaise`'s matter. */
  lemma DeletedIdsAreStaleIds(existing: seq<Doc>, crawled: set<Url>)
    ensures forall id :: id in Ids(DocsToRemove(existing, crawled)) <==>
      exists d :: d in existing && Stale(d, crawled) && d.id == id
  {
  }

  /** Whether or not a deletion raised, every id deleted is the id of a
      listed stale document. */
  lemma DeletedPrefixIsStale(existing: seq<Doc>, crawled: set<Url>, raises: string -> bool,
                             deleted: seq<string>, raised: bool)
    requires DeletesUntilRaise(Ids(DocsToRemove(existing, crawled)), raises, deleted, raised)
    ensures forall i :: 0 <= i < |deleted| ==> exists d :: d in existing && Stale(d, crawled) && d.id == deleted[i]
  {
  }

  /** What one run of the docs crawler does with the indexer:
      `deleteRaised` records that a `delete_doc` call raised, which ends the run. */
  datatype CrawlOutcome = CrawlOutcome(crawled: set<Url>, processed: seq<Dispatched>, deleted: seq<string>, deleteRaised: bool)

  /** `DocsCrawler.crawl` without parallel workers: discover from every seed,
      process each crawled URL once, then optionally delete what was not
      crawled. Dispatch and deletion only start once every seed's loop has
      drained; `None` stands for a crawl still discovering when the fuel
      runs out. */
  method Crawl(env: Env, seeds: seq<Url>, fuel: nat, source: string,
               indexUrl: IndexUrlRequest -> IndexOutcome, removeOldContent: bool, existing: seq<Doc>,
               deleteRaises: string -> bool)
    returns (r: Option<CrawlOutcome>)
    ensures r.Some? <==> RunSeeds(env, seeds, fuel, {}, {}).drained
    ensures r.Some? ==> r.value.crawled == RunSeeds(env, seeds, fuel, {}, {}).crawled
    ensures r.Some? ==> forall u :: u in r.value.crawled ==> IsFetchTarget(env, u)
    ensures r.Some? ==> |r.value.processed| == |r.value.crawled|
    ensures r.Some? ==> forall u :: u in r.value.crawled ==>
      exists i :: 0 <= i < |r.value.processed| && r.value.processed[i].url == u
    ensures r.Some? ==> forall i :: 0 <= i < |r.value.processed| ==>
      r.value.processed[i].url in r.value.crawled && r.value.processed[i].source == source
    ensures r.Some? && removeOldContent ==>
      DeletesUntilRaise(Ids(DocsToRemove(existing, r.value.crawled)), deleteRaises, r.value.deleted, r.value.deleteRaised)
    ensures r.Some? ==> forall i :: 0 <= i < |r.value.deleted| ==>
      exists d :: d in existing && Stale(d, r.value.crawled) && d.id == r.value.deleted[i]
    ensures r.Some? && !removeOldContent ==> r.value.deleted == [] && !r.value.deleteRaised
  {
    var collected := CollectAll(env, seeds, fuel);
    if !collected.drained {
      return None;
    }
    var crawled := collected.crawled;
    var processed := DispatchSequential(crawled, source, indexUrl);
    var deleted, raised := Reconcile(removeOldContent, existing, crawled, deleteRaises);
    if removeOldContent {
      DeletedPrefixIsStale(existing, crawled, deleteRaises, deleted, raised);
    }
    r := Some(CrawlOutcome(crawled, processed, deleted, raised));
  }
}

=== FILE: frontier.dfy ===
/** The breadth-first link discovery of `DocsCrawler.collect_urls`: a FIFO
    queue of pending URLs and the crawl-wide `crawled_urls` and
    `ignored_urls` sets. */
module Frontier {
  import opened Common
  import opened Strings
  import opened Links

  /** What one fetch (`get_url_content`, meta refresh included) yields:
      the URL it returns and the `href` attribute of every anchor on the
      page, in document order (`None` for an anchor without one); or
      nothing, when the status was not 200 or the fetch raised. The URL
      returned is the refresh target after a meta refresh, and otherwise
      the requested URL, even after an HTTP redirect. */
  datatype FetchResult = Fetched(finalUrl: Url, hrefs: seq<Option<string>>) | NotFetched

  /** Everything the loop consults but never changes. */
  datatype Env = Env(lib: UrlLib, filter: LinkFilter, fetch: Url -> FetchResult)

  /** The loop state: `queue` is the deque `new_urls`. */
  datatype CrawlState = CrawlState(queue: seq<Url>, crawled: set<Url>, ignored: set<Url>)

  /** The state `collect_urls(seed)` starts from, given the sets left by earlier seeds. */
  function Start(seed: Url, crawled: set<Url>, ignored: set<Url>): CrawlState
  {
    CrawlState([seed], crawled, ignored)
  }

  /** `u` is the final URL of some successful fetch. */
  ghost predicate IsFetchTarget(env: Env, u: Url)
  {
    exists v :: env.fetch(v).Fetched? && env.fetch(v).finalUrl == u
  }

  /** One pass of the inner `for link in page_content.find_all('a')` loop
      body on page `page`: an anchor without `href` is skipped; an accepted
      link is appended unless it is already crawled or queued; a rejected
      one is cached in `ignored`. `None` means resolving or classifying the
      link raised, which ends the scan (the whole loop sits inside one `try`). */
  function ScanOne(env: Env, page: Url, link: Option<string>, st: CrawlState): (r: Option<CrawlState>)
    ensures r.None? <==>
      && link.Some?
      && (|| ConcatUrlAndHref(env.lib, page, link.value).None?
          || Classify(env.lib, env.filter, st.ignored, ConcatUrlAndHref(env.lib, page, link.value).value) == Raised)
    ensures link.None? ==> r == Some(st)
    ensures link.Some? && ConcatUrlAndHref(env.lib, page, link.value).Some? ==>
      var abs := ConcatUrlAndHref(env.lib, page, link.value).value;
      var v := Classify(env.lib, env.filter, st.ignored, abs);
      && (v == Reject ==> r == Some(st.(ignored := st.ignored + {abs})))
      && (v == Accept && abs !in st.crawled && abs !in st.queue ==> r == Some(st.(queue := st.queue + [abs])))
      && (v == Accept && (abs in st.crawled || abs in st.queue) ==> r == Some(st))
    ensures r.Some? ==> r.value.crawled == st.crawled
    ensures r.Some? ==> st.ignored <= r.value.ignored
    ensures r.Some? ==> forall u :: u in r.value.ignored && u !in st.ignored ==> !Admissible(env.lib, env.filter, u)
    ensures r.Some? ==>
      || r.value.queue == st.queue
      || (exists abs :: && r.value.queue == st.queue + [abs]
                        && Admissible(env.lib, env.filter, abs)
                        && abs !in st.crawled && abs !in st.queue && abs !in r.value.ignored)
  {
    match link
    case None => Some(st)
    case Some(href) =>
      match ConcatUrlAndHref(env.lib, page, href)
      case None => None
      case Some(abs) =>
        match Classify(env.lib, env.filter, st.ignored, abs)
        case Raised => None
        case Reject => Some(st.(ignored := st.ignored + {abs}))
        case Accept =>
          if abs !in st.crawled && abs !in st.queue then Some(st.(queue := st.queue + [abs]))
          else Some(st)
  }

  /** The anchor `link` of page `page` resolves to `u`. */
  predicate LinksTo(env: Env, page: Url, link: Option<string>, u: Url)
  {
    link.Some? && ConcatUrlAndHref(env.lib, page, link.value) == Some(u)
  }

  /** The whole inner loop over the anchors of page `page`, in document order,
      stopping at the first link that raises and keeping what was done so far. */
  function ScanLinks(env: Env, page: Url, hrefs: seq<Option<string>>, st: CrawlState): (r: CrawlState)
    ensures r.crawled == st.crawled
    ensures st.ignored <= r.ignored
    ensures forall u :: u in r.ignored && u !in st.ignored ==> !Admissible(env.lib, env.filter, u)
    ensures |st.queue| <= |r.queue| && r.queue[..|st.queue|] == st.queue
    ensures forall i :: |st.queue| <= i < |r.queue| ==>
      Admissible(env.lib, env.filter, r.queue[i]) && r.queue[i] !in st.crawled && r.queue[i] !in r.ignored
    ensures NoDup(st.queue) ==> NoDup(r.queue)
    decreases |hrefs|
  {
    if |hrefs| == 0 then st
    else match ScanOne(env, page, hrefs[0], st)
      case None => st
      case Some(next) =>
        var r := ScanLinks(env, page, hrefs[1..], next);
        assert r.queue[..|st.queue|] == next.queue[..|next.queue|][..|st.queue|];
        assert forall i :: |st.queue| <= i < |next.queue| ==> r.queue[i] == next.queue[i];
        r
  }

  /** Scanning a page queues and ignores only URLs the page links to: every
      appended or newly ignored URL is the resolution of one of its anchors. */
  lemma {:induction false} ScanLinksOnlyPageLinks(env: Env, page: Url, hrefs: seq<Option<string>>, st: CrawlState)
    ensures forall i :: |st.queue| <= i < |ScanLinks(env, page, hrefs, st).queue| ==>
      exists j :: 0 <= j < |hrefs| && LinksTo(env, page, hrefs[j], ScanLinks(env, page, hrefs, st).queue[i])
    ensures forall u :: u in ScanLinks(env, page, hrefs, st).ignored && u !in st.ignored ==>
      exists j :: 0 <= j < |hrefs| && LinksTo(env, page, hrefs[j], u)
    decreases |hrefs|
  {
    var r := ScanLinks(env, page, hrefs, st);
    if |hrefs| > 0 && ScanOne(env, page, hrefs[0], st).Some? {
      var next := ScanOne(env, page, hrefs[0], st).value;
      assert r == ScanLinks(env, page, hrefs[1..], next);
      ScanLinksOnlyPageLinks(env, page, hrefs[1..], next);
      forall i | |st.queue| <= i < |r.queue|
        ensures exists j :: 0 <= j < |hrefs| && LinksTo(env, page, hrefs[j], r.queue[i])
      {
        if i < |next.queue| {
          assert r.queue[i] == next.queue[i];
          assert LinksTo(env, page, hrefs[0], r.queue[i]);
        } else {
          var j :| 0 <= j < |hrefs[1..]| && LinksTo(env, page, hrefs[1..][j], r.queue[i]);
          assert hrefs[1..][j] == hrefs[j + 1];
        }
      }
      forall u | u in r.ignored && u !in st.ignored
        ensures exists j :: 0 <= j < |hrefs| && LinksTo(env, page, hrefs[j], u)
      {
        if u in next.ignored {
          assert LinksTo(env, page, hrefs[0], u);
        } else {
          var j :| 0 <= j < |hrefs[1..]| && LinksTo(env, page, hrefs[1..][j], u);
          assert hrefs[1..][j] == hrefs[j + 1];
        }
      }
    }
  }

  /** Resolving and classifying `link` on page `page` cannot raise, whatever
      the set of ignored URLs: the href resolves, and the fragment can be
      computed whenever clauses (a)-(c) of the filter hold. */
  predicate Safe(env: Env, page: Url, link: Option<string>)
  {
    || link.None?
    || (&& ConcatUrlAndHref(env.lib, page, link.value).Some?
        && var abs := ConcatUrlAndHref(env.lib, page, link.value).value;
           || !AnyMatch(env.filter.positive, abs)
           || AnyMatch(env.filter.negative, abs)
           || !StartsWith(abs, "http")
           || env.lib.fragment(abs).Some?)
  }

  /** The anchor `link` of page `page` has been dealt with in state `st`: its
      resolved URL is queued, crawled or ignored if it passes the filter, and
      ignored if it fails it. */
  ghost predicate Handled(env: Env, page: Url, link: Option<string>, st: CrawlState)
  {
    || link.None?
    || (&& ConcatUrlAndHref(env.lib, page, link.value).Some?
        && var abs := ConcatUrlAndHref(env.lib, page, link.value).value;
           && (Admissible(env.lib, env.filter, abs) ==> abs in st.queue || abs in st.crawled || abs in st.ignored)
           && (!Admissible(env.lib, env.filter, abs) ==> abs in st.ignored))
  }

  /** A link dealt with stays dealt with as the queue and the sets grow. */
  lemma HandledGrows(env: Env, page: Url, link: Option<string>, a: CrawlState, b: CrawlState)
    requires Handled(env, page, link, a)
    requires |a.queue| <= |b.queue| && b.queue[..|a.queue|] == a.queue
    requires a.crawled <= b.crawled && a.ignored <= b.ignored
    ensures Handled(env, page, link, b)
  {
  }

  /** Scanning a page deals with every anchor up to the first one that could
      raise: each link that passes the filter ends up queued (or was crawled
      or ignored already), and each one that fails it ends up ignored. */
  lemma {:induction false} ScanLinksHandles(env: Env, page: Url, hrefs: seq<Option<string>>, st: CrawlState)
    ensures forall i :: 0 <= i < |hrefs| && (forall j :: 0 <= j <= i ==> Safe(env, page, hrefs[j])) ==>
      Handled(env, page, hrefs[i], ScanLinks(env, page, hrefs, st))
    decreases |hrefs|
  {
    if |hrefs| > 0 && Safe(env, page, hrefs[0]) {
      var next := ScanOne(env, page, hrefs[0], st);
      assert next.Some?;
      var r := ScanLinks(env, page, hrefs, st);
      assert r == ScanLinks(env, page, hrefs[1..], next.value);
      assert Handled(env, page, hrefs[0], next.value);
      HandledGrows(env, page, hrefs[0], next.value, r);
      ScanLinksHandles(env, page, hrefs[1..], next.value);
      forall i | 1 <= i < |hrefs| && (forall j :: 0 <= j <= i ==> Safe(env, page, hrefs[j]))
        ensures Handled(env, page, hrefs[i], r)
      {
        assert hrefs[i] == hrefs[1..][i - 1];
        assert forall j :: 0 <= j <= i - 1 ==> hrefs[1..][j] == hrefs[j + 1];
      }
    }
  }

  /** One iteration of the `while len(new_urls)` loop: pop the front URL,
      fetch it, and on success record the final URL as crawled and scan its links. */
  function Step(env: Env, st: CrawlState): (r: CrawlState)
    requires |st.queue| > 0
    ensures env.fetch(st.queue[0]).NotFetched? ==>
      r.queue == st.queue[1..] && r.crawled == st.crawled && r.ignored == st.ignored
    ensures env.fetch(st.queue[0]).Fetched? ==>
      r.crawled == st.crawled + {env.fetch(st.queue[0]).finalUrl}
    ensures st.ignored <= r.ignored
    ensures forall u :: u in r.ignored && u !in st.ignored ==> !Admissible(env.lib, env.filter, u)
    ensures |st.queue| - 1 <= |r.queue| && r.queue[..|st.queue| - 1] == st.queue[1..]
    ensures forall i :: |st.queue| - 1 <= i < |r.queue| ==>
      Admissible(env.lib, env.filter, r.queue[i]) && r.queue[i] !in r.crawled && r.queue[i] !in r.ignored
    ensures NoDup(st.queue) ==> NoDup(r.queue)
  {
    var rest := st.(queue := st.queue[1..]);
    match env.fetch(st.queue[0])
    case NotFetched => rest
    case Fetched(final, hrefs) =>
      ScanLinks(env, final, hrefs, rest.(crawled := rest.crawled + {final}))
  }

  /** One iteration scans the fetched page: every anchor of it up to the
      first one that could raise is queued, crawled or ignored by its
      verdict once the iteration ends. */
  lemma StepScansPage(env: Env, st: CrawlState)
    requires |st.queue| > 0
    ensures env.fetch(st.queue[0]).Fetched? ==>
      var f := env.fetch(st.queue[0]);
      forall i :: 0 <= i < |f.hrefs| && (forall j :: 0 <= j <= i ==> Safe(env, f.finalUrl, f.hrefs[j])) ==>
        Handled(env, f.finalUrl, f.hrefs[i], Step(env, st))
  {
    match env.fetch(st.queue[0])
    case NotFetched =>
    case Fetched(final, hrefs) =>
      var rest := st.(queue := st.queue[1..]);
      ScanLinksHandles(env, final, hrefs, rest.(crawled := rest.crawled + {final}));
  }

  /** One iteration only ever queues or ignores URLs that the fetched page
      links to: nothing is added when the fetch fails, and every URL added
      is the resolution of one of the page's anchors. */
  lemma StepAddsOnlyPageLinks(env: Env, st: CrawlState)
    requires |st.queue| > 0
    ensures forall i :: |st.queue| - 1 <= i < |Step(env, st).queue| ==>
      && env.fetch(st.queue[0]).Fetched?
      && exists j :: 0 <= j < |env.fetch(st.queue[0]).hrefs|
           && LinksTo(env, env.fetch(st.queue[0]).finalUrl, env.fetch(st.queue[0]).hrefs[j], Step(env, st).queue[i])
    ensures forall u :: u in Step(env, st).ignored && u !in st.ignored ==>
      && env.fetch(st.queue[0]).Fetched?
      && exists j :: 0 <= j < |env.fetch(st.queue[0]).hrefs|
           && LinksTo(env, env.fetch(st.queue[0]).finalUrl, env.fetch(st.queue[0]).hrefs[j], u)
  {
    match env.fetch(st.queue[0])
    case NotFetched =>
      assert |Step(env, st).queue| == |st.queue| - 1;
    case Fetched(final, hrefs) =>
      var scanned := st.(queue := st.queue[1..], crawled := st.crawled + {final});
      assert Step(env, st) == ScanLinks(env, final, hrefs, scanned);
      assert |scanned.queue| == |st.queue| - 1 && scanned.ignored == st.ignored;
      ScanLinksOnlyPageLinks(env, final, hrefs, scanned);
      var r := Step(env, st);
      forall i | |st.queue| - 1 <= i < |r.queue|
        ensures exists j :: 0 <= j < |hrefs| && LinksTo(env, final, hrefs[j], r.queue[i])
      {
        assert |scanned.queue| <= i;
      }
  }

  /** Up to `fuel` iterations of the loop, stopping early when the queue
      drains: an empty queue ends the loop at once, and the two sets only grow. */
  function Run(env: Env, st: CrawlState, fuel: nat): (r: CrawlState)
    ensures |st.queue| == 0 ==> r == st
    ensures st.crawled <= r.crawled && st.ignored <= r.ignored
    decreases fuel
  {
    if fuel == 0 || |st.queue| == 0 then st else Run(env, Step(env, st), fuel - 1)
  }

  /** Once the loop has drained, more fuel changes nothing: the fuel bound
      only cuts off runs that have not finished. */
  lemma {:induction false} RunMoreFuel(env: Env, st: CrawlState, fuel: nat, extra: nat)
    requires |Run(env, st, fuel).queue| == 0
    ensures Run(env, st, fuel + extra) == Run(env, st, fuel)
    decreases fuel
  {
    if |st.queue| > 0 && fuel > 0 {
      RunMoreFuel(env, Step(env, st), fuel - 1, extra);
    }
  }

  /** The bookkeeping invariant of one `collect_urls(seed)` call started from
      the sets `crawled0` and `ignored0` left by earlier seeds: both sets only
      grew; every URL crawled since is the final URL of some fetch; every URL
      ignored since failed the filter on its own merits; the queue holds no
      duplicate, and every queued URL other than the seed passed the filter
      and is not ignored. */
  ghost predicate Bookkeeping(env: Env, seed: Url, crawled0: set<Url>, ignored0: set<Url>, st: CrawlState)
  {
    && crawled0 <= st.crawled && ignored0 <= st.ignored
    && (forall u :: u in st.crawled && u !in crawled0 ==> IsFetchTarget(env, u))
    && (forall u :: u in st.ignored && u !in ignored0 ==> !Admissible(env.lib, env.filter, u))
    && NoDup(st.queue)
    && (forall i :: 0 <= i < |st.queue| ==>
          st.queue[i] == seed || (Admissible(env.lib, env.filter, st.queue[i]) && st.queue[i] !in st.ignored))
  }

  /** One iteration of the loop keeps the bookkeeping invariant. */
  lemma StepKeeps(env: Env, seed: Url, crawled0: set<Url>, ignored0: set<Url>, st: CrawlState)
    requires |st.queue| > 0 && Bookkeeping(env, seed, crawled0, ignored0, st)
    ensures Bookkeeping(env, seed, crawled0, ignored0, Step(env, st))
  {
    var r := Step(env, st);
    assert st.crawled <= r.crawled;
    forall u | u in r.crawled && u !in crawled0
      ensures IsFetchTarget(env, u)
    {
      if u !in st.crawled {
        assert env.fetch(st.queue[0]).Fetched? && env.fetch(st.queue[0]).finalUrl == u;
      }
    }
    forall i | 0 <= i < |r.queue|
      ensures r.queue[i] == seed || (Admissible(env.lib, env.filter, r.queue[i]) && r.queue[i] !in r.ignored)
    {
      if i < |st.queue| - 1 {
        assert r.queue[i] == st.queue[i + 1];
      }
    }
  }

  /** `collect_urls(seed)` with at most `fuel` iterations: the loop need not
      terminate (see `RedirectLoopNeverDrains`), so the fuel bounds it.
      `drained` reports that the queue emptied within the fuel. */
  method CollectUrls(env: Env, seed: Url, crawled0: set<Url>, ignored0: set<Url>, fuel: nat)
    returns (st: CrawlState, drained: bool)
    ensures st == Run(env, Start(seed, crawled0, ignored0), fuel)
    ensures drained <==> |st.queue| == 0
    ensures crawled0 <= st.crawled && ignored0 <= st.ignored
    ensures forall u :: u in st.crawled && u !in crawled0 ==> IsFetchTarget(env, u)
    ensures forall u :: u in st.ignored && u !in ignored0 ==> !Admissible(env.lib, env.filter, u)
    ensures NoDup(st.queue)
    ensures forall i :: 0 <= i < |st.queue| && st.queue[i] != seed ==>
      Admissible(env.lib, env.filter, st.queue[i]) && st.queue[i] !in st.ignored
  {
    st := Iterate(env, seed, crawled0, ignored0, Start(seed, crawled0, ignored0), fuel);
    drained := |st.queue| == 0;
  }

  /** The `while len(new_urls)` loop itself, from `st0`, for at most `fuel`
      iterations, keeping the bookkeeping invariant. */
  method Iterate(env: Env, seed: Url, crawled0: set<Url>, ignored0: set<Url>, st0: CrawlState, fuel: nat)
    returns (st: CrawlState)
    requires Bookkeeping(env, seed, crawled0, ignored0, st0)
    ensures st == Run(env, st0, fuel)
    ensures Bookkeeping(env, seed, crawled0, ignored0, st)
  {
    st := st0;
    var left := fuel;
    while left > 0 && |st.queue| > 0
      invariant Run(env, st, left) == Run(env, st0, fuel)
      invariant Bookkeeping(env, seed, crawled0, ignored0, st)
      decreases left
    {
      StepKeeps(env, seed, crawled0, ignored0, st);
      st := Step(env, st);
      left := left - 1;
    }
  }

  /** What discovery over all seeds leaves behind: the shared sets, and
      whether every `collect_urls` call drained its queue within the fuel. */
  datatype Collected = Collected(crawled: set<Url>, ignored: set<Url>, drained: bool)

  /** `crawl()`'s `for base_url in base_urls` loop as a fold: each seed's loop
      starts from the sets the previous one left. A seed whose loop does not
      drain within the fuel stops the fold there, since the next seed is only
      reached once the previous loop has ended. */
  function RunSeeds(env: Env, seeds: seq<Url>, fuel: nat, crawled: set<Url>, ignored: set<Url>): (r: Collected)
    ensures crawled <= r.crawled && ignored <= r.ignored
    decreases |seeds|
  {
    if |seeds| == 0 then Collected(crawled, ignored, true)
    else
      var st := Run(env, Start(seeds[0], crawled, ignored), fuel);
      if |st.queue| > 0 then Collected(st.crawled, st.ignored, false)
      else RunSeeds(env, seeds[1..], fuel, st.crawled, st.ignored)
  }

  /** When every seed's loop drains, more fuel gives the same sets: the
      result is then the one the unbounded loops reach. */
  lemma {:induction false} RunSeedsMoreFuel(env: Env, seeds: seq<Url>, fuel: nat, extra: nat,
                                            crawled: set<Url>, ignored: set<Url>)
    requires RunSeeds(env, seeds, fuel, crawled, ignored).drained
    ensures RunSeeds(env, seeds, fuel + extra, crawled, ignored) == RunSeeds(env, seeds, fuel, crawled, ignored)
    decreases |seeds|
  {
    if |seeds| > 0 {
      var st := Run(env, Start(seeds[0], crawled, ignored), fuel);
      RunMoreFuel(env, Start(seeds[0], crawled, ignored), fuel, extra);
      RunSeedsMoreFuel(env, seeds[1..], fuel, extra, st.crawled, st.ignored);
    }
  }

  /** `crawl()`'s `for base_url in base_urls` loop: one `collect_urls` per
      seed, all sharing the `crawled_urls` and `ignored_urls` sets, which
      start empty. The result is the fold `RunSeeds`, and every crawled URL
      is a fetch result and every ignored one fails the filter. */
  method CollectAll(env: Env, seeds: seq<Url>, fuel: nat) returns (c: Collected)
    ensures c == RunSeeds(env, seeds, fuel, {}, {})
    ensures forall u :: u in c.crawled ==> IsFetchTarget(env, u)
    ensures forall u :: u in c.ignored ==> !Admissible(env.lib, env.filter, u)
  {
    var crawled: set<Url>, ignored: set<Url> := {}, {};
    var drained := true;
    var k := 0;
    while k < |seeds| && drained
      invariant k <= |seeds|
      invariant drained ==> RunSeeds(env, seeds[k..], fuel, crawled, ignored) == RunSeeds(env, seeds, fuel, {}, {})
      invariant !drained ==> Collected(crawled, ignored, false) == RunSeeds(env, seeds, fuel, {}, {})
      invariant forall u :: u in crawled ==> IsFetchTarget(env, u)
      invariant forall u :: u in ignored ==> !Admissible(env.lib, env.filter, u)
    {
      var st, d := CollectUrls(env, seeds[k], crawled, ignored, fuel);
      assert seeds[k..][0] == seeds[k] && seeds[k..][1..] == seeds[k + 1..];
      crawled, ignored, drained := st.crawled, st.ignored, d;
      k := k + 1;
    }
    if drained {
      assert seeds[k..] == [];
    }
    c := Collected(crawled, ignored, drained);
  }

  // ---------------------------------------------------------------------
  // The meta-refresh loop. A popped URL is never itself recorded as
  // crawled: only the URL `get_url_content` returns is, and a meta refresh
  // replaces it by the refresh target. When X's page refreshes to Y and Y
  // links back to X, X passes every check again and is re-queued, forever.

  const RedirectSource: Url := "http://x"
  const RedirectTarget: Url := "http://y"

  /** Every page carries a meta refresh to `RedirectTarget`, whose one link
      points back at `RedirectSource`; the filter accepts exactly these two
      URLs, so the site is finite. */
  function RedirectEnv(): Env
  {
    Env(UrlLib((base, href) => Some(href), u => Some("")),
        LinkFilter([u => u == RedirectSource || u == RedirectTarget], [], []),
        u => Fetched(RedirectTarget, [Some(RedirectSource)]))
  }

  /** After one iteration from the seed `RedirectSource`, the state is a
      fixed point of the loop: its queue is never empty again. */
  lemma {:induction false} RedirectLoopNeverDrains(fuel: nat)
    ensures Run(RedirectEnv(), Start(RedirectSource, {}, {}), fuel + 1)
         == CrawlState([RedirectSource], {RedirectTarget}, {})
    decreases fuel
  {
    var env := RedirectEnv();
    var stuck := CrawlState([RedirectSource], {RedirectTarget}, {});
    assert Admissible(env.lib, env.filter, RedirectSource) by {
      assert env.filter.positive[0](RedirectSource);
      assert StartsWith(RedirectSource, "http");
    }
    assert ConcatUrlAndHref(env.lib, RedirectTarget, RedirectSource) == Some(RedirectSource) by {
      assert StartsWith(RedirectSource, "http");
    }
    assert Classify(env.lib, env.filter, {}, RedirectSource) == Accept;
    assert RedirectSource != RedirectTarget;
    assert [Some(RedirectSource)][1..] == [];
    assert ScanLinks(env, RedirectTarget, [Some(RedirectSource)], CrawlState([], {RedirectTarget}, {})) == stuck;
    assert env.fetch(RedirectSource) == Fetched(RedirectTarget, [Some(RedirectSource)]);
    assert [RedirectSource][1..] == [];
    var none: set<Url> := {};
    assert none + {RedirectTarget} == {RedirectTarget};
    assert Step(env, Start(RedirectSource, {}, {})) == stuck;
    assert Step(env, stuck) == stuck;
    if fuel > 0 {
      RedirectLoopNeverDrains(fuel - 1);
      RunFixedPoint(env, stuck, fuel);
    }
  }

  /** A state the loop maps to itself stays put for any amount of fuel. */
  lemma {:induction false} RunFixedPoint(env: Env, st: CrawlState, fuel: nat)
    requires |st.queue| > 0 && Step(env, st) == st
    ensures Run(env, st, fuel) == st
    decreases fuel
  {
    if fuel > 0 {
      RunFixedPoint(env, st, fuel - 1);
    }
  }

  /** Hence a crawl seeded with `RedirectSource` never gets past discovery,
      whatever the fuel. */
  lemma RedirectCrawlNeverDrains(fuel: nat)
    ensures !RunSeeds(RedirectEnv(), [RedirectSource], fuel, {}, {}).drained
  {
    if fuel > 0 {
      RedirectLoopNeverDrains(fuel - 1);
    }
  }

  /** The corrected loop also remembers every URL it has requested and pops
      such a URL without fetching it again. */
  datatype GuardedFrontier = GuardedFrontier(frontier: CrawlState, requested: set<Url>)

  function GuardedStep(env: Env, g: GuardedFrontier): (r: GuardedFrontier)
    requires |g.frontier.queue| > 0
    ensures g.frontier.queue[0] in g.requested ==>
      r.requested == g.requested && r.frontier == g.frontier.(queue := g.frontier.queue[1..])
    ensures g.frontier.queue[0] !in g.requested ==>
      r.requested == g.requested + {g.frontier.queue[0]} && r.frontier == Step(env, g.frontier)
  {
    var url := g.frontier.queue[0];
    if url in g.requested then g.(frontier := g.frontier.(queue := g.frontier.queue[1..]))
    else GuardedFrontier(Step(env, g.frontier), g.requested + {url})
  }

  /** Only the URLs in `universe` can pass the filter: the site is finite. */
  ghost predicate ClosedUnder(env: Env, universe: set<Url>)
  {
    forall u :: Admissible(env.lib, env.filter, u) ==> u in universe
  }

  /** Over a finite site, the corrected loop drains the queue without any fuel bound. */
  function RunGuarded(env: Env, g: GuardedFrontier, universe: set<Url>): (r: GuardedFrontier)
    requires ClosedUnder(env, universe)
    requires forall i :: 0 <= i < |g.frontier.queue| ==> g.frontier.queue[i] in universe
    ensures |r.frontier.queue| == 0
    ensures g.requested <= r.requested
    decreases |universe - g.requested|, |g.frontier.queue|
  {
    if |g.frontier.queue| == 0 then g
    else
      var url := g.frontier.queue[0];
      var next := GuardedStep(env, g);
      assert forall i :: 0 <= i < |next.frontier.queue| ==> next.frontier.queue[i] in universe by {
        forall i | 0 <= i < |next.frontier.queue|
          ensures next.frontier.queue[i] in universe
        {
          if i < |g.frontier.queue| - 1 {
            assert next.frontier.queue[i] == g.frontier.queue[i + 1];
          }
        }
      }
      if url !in g.requested then
        assert |universe - next.requested| < |universe - g.requested| by {
          assert universe - g.requested == (universe - next.requested) + {url};
          assert url !in universe - next.requested;
        }
        RunGuarded(env, next, universe)
      else
        RunGuarded(env, next, universe)
  }

  /** What the corrected loop keeps from one iteration to the next. */
  ghost predicate GuardedInvariant(env: Env, seed: Url, crawled0: set<Url>, ignored0: set<Url>,
                                   universe: set<Url>, g: GuardedFrontier)
  {
    && (forall i :: 0 <= i < |g.frontier.queue| ==> g.frontier.queue[i] in universe)
    && Bookkeeping(env, seed, crawled0, ignored0, g.frontier)
  }

  /** One corrected iteration keeps the invariant and makes progress: it
      either requests a new URL of the finite site or shortens the queue. */
  lemma GuardedStepKeeps(env: Env, seed: Url, crawled0: set<Url>, ignored0: set<Url>,
                         universe: set<Url>, g: GuardedFrontier)
    requires ClosedUnder(env, universe) && |g.frontier.queue| > 0
    requires GuardedInvariant(env, seed, crawled0, ignored0, universe, g)
    ensures GuardedInvariant(env, seed, crawled0, ignored0, universe, GuardedStep(env, g))
    ensures || |universe - GuardedStep(env, g).requested| < |universe - g.requested|
            || (&& GuardedStep(env, g).requested == g.requested
                && |GuardedStep(env, g).frontier.queue| < |g.frontier.queue|)
  {
    var url := g.frontier.queue[0];
    var next := GuardedStep(env, g);
    if url !in g.requested {
      StepKeeps(env, seed, crawled0, ignored0, g.frontier);
      assert universe - g.requested == (universe - next.requested) + {url};
      assert url !in universe - next.requested;
    }
    forall i | 0 <= i < |next.frontier.queue|
      ensures next.frontier.queue[i] in universe
      ensures url in g.requested ==> next.frontier.queue[i] == g.frontier.queue[i + 1]
    {
      if i < |g.frontier.queue| - 1 {
        assert next.frontier.queue[i] == g.frontier.queue[i + 1];
      }
    }
  }

  /** `collect_urls(seed)` with the correction: over a finite site it runs
      until the queue drains, with the same bookkeeping as the loop as written. */
  method CollectUrlsGuarded(env: Env, seed: Url, crawled0: set<Url>, ignored0: set<Url>, ghost universe: set<Url>)
    returns (st: CrawlState)
    requires ClosedUnder(env, universe) && seed in universe
    ensures st == RunGuarded(env, GuardedFrontier(Start(seed, crawled0, ignored0), {}), universe).frontier
    ensures |st.queue| == 0
    ensures crawled0 <= st.crawled && ignored0 <= st.ignored
    ensures forall u :: u in st.crawled && u !in crawled0 ==> IsFetchTarget(env, u)
    ensures forall u :: u in st.ignored && u !in ignored0 ==> !Admissible(env.lib, env.filter, u)
  {
    var g0 := GuardedFrontier(Start(seed, crawled0, ignored0), {});
    var g := g0;
    while |g.frontier.queue| > 0
      invariant GuardedInvariant(env, seed, crawled0, ignored0, universe, g)
      invariant RunGuarded(env, g, universe) == RunGuarded(env, g0, universe)
      decreases |universe - g.requested|, |g.frontier.queue|
    {
      GuardedStepKeeps(env, seed, crawled0, ignored0, universe, g);
      assert RunGuarded(env, g, universe) == RunGuarded(env, GuardedStep(env, g), universe);
      g := GuardedStep(env, g);
    }
    st := g.frontier;
  }

  /** The correction fixes the loop of `RedirectLoopNeverDrains`: on the same
      site, the guarded loop from the same seed drains its queue. */
  lemma RedirectGuardedDrains()
    ensures ClosedUnder(RedirectEnv(), {RedirectSource, RedirectTarget})
    ensures |RunGuarded(RedirectEnv(), GuardedFrontier(Start(RedirectSource, {}, {}), {}),
                        {RedirectSource, RedirectTarget}).frontier.queue| == 0
  {
  }
}

=== FILE: links.dfy ===
/** Link resolution and the six-clause link filter of the docs crawler
    (`DocsCrawler.concat_url_and_href` and the test in `collect_urls`). */
module Links {
  import opened Common
  import opened Strings

  type Url = string

  /** The two `urllib.parse` calls the crawler makes, left uninterpreted:
      `join(base, href)` is `urljoin`, `fragment(u)` is `urlparse(u).fragment`.
      `None` stands for the call raising (both raise `ValueError` on some
      malformed inputs). */
  datatype UrlLib = UrlLib(join: (Url, string) -> Option<Url>, fragment: Url -> Option<string>)

  /** The crawl's filter configuration: compiled positive and negative
      patterns (each is `re.match`, anchored at the start of the URL) and the
      extensions to ignore (configured ones together with the binary ones). */
  datatype LinkFilter = LinkFilter(positive: seq<Url -> bool>, negative: seq<Url -> bool>, extensions: seq<string>)

  /** Verdict of the filter on one resolved link. `Raised` means evaluating it
      threw, which abandons the rest of the page. */
  datatype Verdict = Accept | Reject | Raised

  /** The query-as-path marker some static documentation generators emit. */
  const SparkIndexMarker: string := "index.html?"

  /** The href after the Spark-docs rewrite: every `index.html?` becomes `/`.
      The `in` test guarding the rewrite does not change the outcome: the
      result is `href.replace('index.html?', '/')` for every href. */
  function SparkFix(href: string): (r: string)
    ensures r == ReplaceAll(href, SparkIndexMarker, "/")
    ensures !Contains(r, SparkIndexMarker)
    ensures !Contains(href, SparkIndexMarker) ==> r == href
  {
    ReplaceRemovesPattern(href, SparkIndexMarker, '/');
    if Contains(href, SparkIndexMarker) then
      ReplaceAll(href, SparkIndexMarker, "/")
    else
      ReplaceAbsentIsIdentity(href, SparkIndexMarker, "/");
      href
  }

  /** `concat_url_and_href`: an href starting with `http` is taken as is;
      any other is rewritten and then resolved against the page URL. */
  function ConcatUrlAndHref(lib: UrlLib, url: Url, href: string): (r: Option<Url>)
    ensures StartsWith(href, "http") ==> r == Some(href)
    ensures !StartsWith(href, "http") ==> r == lib.join(url, ReplaceAll(href, SparkIndexMarker, "/"))
    ensures !StartsWith(href, "http") ==>
      exists arg :: r == lib.join(url, arg) && !Contains(arg, SparkIndexMarker)
    ensures !StartsWith(href, "http") && !Contains(href, SparkIndexMarker) ==> r == lib.join(url, href)
  {
    if StartsWith(href, "http") then Some(href)
    else
      var arg := SparkFix(href);
      assert !Contains(arg, SparkIndexMarker);
      lib.join(url, arg)
  }

  /** `any(r.match(u) for r in patterns)`; false for an empty list. */
  predicate AnyMatch(patterns: seq<Url -> bool>, u: Url)
  {
    exists i :: 0 <= i < |patterns| && patterns[i](u)
  }

  /** `any(u.endswith(ext) for ext in extensions)` */
  predicate EndsWithAny(u: Url, extensions: seq<string>)
  {
    exists i :: 0 <= i < |extensions| && EndsWith(u, extensions[i])
  }

  /** The five clauses of the filter that depend on the URL alone (all but
      the "previously ignored" clause): a link is admissible when they all
      hold and the fragment can be computed. */
  predicate Admissible(lib: UrlLib, filter: LinkFilter, u: Url)
  {
    && AnyMatch(filter.positive, u)
    && !AnyMatch(filter.negative, u)
    && StartsWith(u, "http")
    && lib.fragment(u) == Some("")
    && !EndsWithAny(u, filter.extensions)
  }

  /** The filter of `collect_urls`, evaluated left to right with
      short-circuit: (a) some positive pattern matches, (b) no negative one
      does, (c) the URL starts with `http`, (d) it is not in `ignored`,
      (e) it has an empty fragment, (f) it ends with no ignored extension.
      Only (e) can raise, and only when (a)-(d) hold. */
  function Classify(lib: UrlLib, filter: LinkFilter, ignored: set<Url>, u: Url): (v: Verdict)
    ensures v == Accept <==> Admissible(lib, filter, u) && u !in ignored
    ensures v == Raised <==>
      AnyMatch(filter.positive, u) && !AnyMatch(filter.negative, u) && StartsWith(u, "http")
      && u !in ignored && lib.fragment(u).None?
    ensures u in ignored ==> v == Reject
    ensures |filter.positive| == 0 ==> v == Reject
  {
    if !AnyMatch(filter.positive, u) || AnyMatch(filter.negative, u)
       || !StartsWith(u, "http") || u in ignored then Reject
    else match lib.fragment(u)
      case None => Raised
      case Some(frag) => if |frag| == 0 && !EndsWithAny(u, filter.extensions) then Accept else Reject
  }

  /** The ignored-set clause is only a cache: for a URL outside both sets,
      the verdict does not depend on which set of ignored URLs is current. */
  lemma ClassifyIgnoresCacheOfOtherUrls(lib: UrlLib, filter: LinkFilter, ignored1: set<Url>, ignored2: set<Url>, u: Url)
    requires u !in ignored1 && u !in ignored2
    ensures Classify(lib, filter, ignored1, u) == Classify(lib, filter, ignored2, u)
  {
  }
}

=== FILE: strings.dfy ===
/** Python `str` operations the crawlers rely on, with the meaning Python gives them. */
module Strings {

  /** `s.startswith(p)` */
  predicate StartsWith(s: string, p: string)
  {
    |p| <= |s| && s[..|p|] == p
  }

  /** `s.endswith(p)` */
  predicate EndsWith(s: string, p: string)
  {
    |p| <= |s| && s[|s| - |p|..] == p
  }

  /** `p in s`: `p` occurs in `s` at some position. */
  predicate Contains(s: string, p: string)
    decreases |s|
  {
    StartsWith(s, p) || (|s| > 0 && Contains(s[1..], p))
  }

  /** `s.replace(pat, rep)`: every occurrence of `pat`, scanning left to right
      without overlaps, is replaced by `rep`. */
  function ReplaceAll(s: string, pat: string, rep: string): (r: string)
    requires |pat| > 0
    ensures |rep| <= |pat| ==> |r| <= |s|
    ensures |rep| == |pat| ==> |r| == |s|
    ensures StartsWith(s, pat) ==> StartsWith(r, rep)
    decreases |s|
  {
    if |s| == 0 then ""
    else if StartsWith(s, pat) then rep + ReplaceAll(s[|pat|..], pat, rep)
    else [s[0]] + ReplaceAll(s[1..], pat, rep)
  }

  /** Replacing a pattern that does not occur changes nothing. */
  lemma {:induction false} ReplaceAbsentIsIdentity(s: string, pat: string, rep: string)
    requires |pat| > 0
    requires !Contains(s, pat)
    ensures ReplaceAll(s, pat, rep) == s
    decreases |s|
  {
    if |s| > 0 {
      ReplaceAbsentIsIdentity(s[1..], pat, rep);
      assert [s[0]] + s[1..] == s;
    }
  }

  /** The first character of a replacement's output: the replacement
      character if the input starts with the pattern, else the input's own. */
  lemma ReplaceHead(t: string, pat: string, c: char)
    requires |pat| > 0 && |t| > 0
    ensures |ReplaceAll(t, pat, [c])| > 0
    ensures ReplaceAll(t, pat, [c])[0] == if StartsWith(t, pat) then c else t[0]
  {
  }

  /** If the output of a replacement by the single character `c` starts with
      a string free of `c`, the input started with that string already. */
  lemma {:induction false} ReplacedPrefix(t: string, pat: string, c: char, q: string)
    requires |pat| > 0
    requires c !in q
    requires StartsWith(ReplaceAll(t, pat, [c]), q)
    ensures StartsWith(t, q)
    decreases |t|
  {
    var r := ReplaceAll(t, pat, [c]);
    if |q| > 0 && |t| > 0 {
      ReplaceHead(t, pat, c);
      assert q[0] == r[0];
      assert !StartsWith(t, pat);
      var rest := ReplaceAll(t[1..], pat, [c]);
      assert r == [t[0]] + rest;
      assert rest[..|q| - 1] == r[1..|q|] == q[1..];
      ReplacedPrefix(t[1..], pat, c, q[1..]);
      assert t[..|q|] == [t[0]] + t[1..][..|q| - 1];
    }
  }

  /** Replacing every occurrence of `pat` by a character that `pat` does not
      contain leaves no occurrence of `pat` behind. */
  lemma {:induction false} ReplaceRemovesPattern(s: string, pat: string, c: char)
    requires |pat| > 0
    requires c !in pat
    ensures !Contains(ReplaceAll(s, pat, [c]), pat)
    decreases |s|
  {
    var r := ReplaceAll(s, pat, [c]);
    if |s| == 0 {
    } else if StartsWith(s, pat) {
      var rest := ReplaceAll(s[|pat|..], pat, [c]);
      ReplaceRemovesPattern(s[|pat|..], pat, c);
      assert r == [c] + rest;
      assert r[1..] == rest;
      assert r[0] == c;
      assert !StartsWith(r, pat);
    } else {
      var rest := ReplaceAll(s[1..], pat, [c]);
      ReplaceRemovesPattern(s[1..], pat, c);
      assert r == [s[0]] + rest;
      assert r[1..] == rest;
      assert !StartsWith(r, pat) by {
        if StartsWith(r, pat) {
          assert rest[..|pat| - 1] == r[1..|pat|] == pat[1..];
          assert c !in pat[1..];
          ReplacedPrefix(s[1..], pat, c, pat[1..]);
        }
      }
    }
  }

  /** The total length of the strings in `xs`. */
  function TotalLength(xs: seq<string>): nat
    decreases |xs|
  {
    if |xs| == 0 then 0 else |xs[0]| + TotalLength(xs[1..])
  }

  /** `sep.join(xs)`: the elements in order, one separator between each
      neighbouring pair and none at either end. */
  function Join(xs: seq<string>, sep: string): (r: string)
    ensures |xs| == 0 ==> r == ""
    ensures |xs| == 1 ==> r == xs[0]
    ensures |xs| > 0 ==> StartsWith(r, xs[0]) && |r| == TotalLength(xs) + (|xs| - 1) * |sep|
    decreases |xs|
  {
    if |xs| == 0 then ""
    else if |xs| == 1 then xs[0]
    else xs[0] + sep + Join(xs[1..], sep)
  }

  /** Joining one more element adds exactly one separator and that element at the end. */
  lemma {:induction false} JoinSnoc(xs: seq<string>, x: string, sep: string)
    requires |xs| > 0
    ensures Join(xs + [x], sep) == Join(xs, sep) + sep + x
    decreases |xs|
  {
    if |xs| == 1 {
      assert (xs + [x])[1..] == [x];
    } else {
      assert (xs + [x])[1..] == xs[1..] + [x];
      JoinSnoc(xs[1..], x, sep);
    }
  }

  /** A character that occurs neither in the separator nor in any element
      does not occur in the joined string. */
  lemma {:induction false} JoinAvoidsChar(xs: seq<string>, sep: string, c: char)
    requires c !in sep
    requires forall i :: 0 <= i < |xs| ==> c !in xs[i]
    ensures c !in Join(xs, sep)
    decreases |xs|
  {
    if |xs| > 1 {
      JoinAvoidsChar(xs[1..], sep, c);
    }
  }

  /** The decimal digit for `d`. */
  function DigitChar(d: nat): (c: char)
    requires d < 10
    ensures '0' <= c <= '9' && (c - '0') as int == d
  {
    "0123456789"[d]
  }

  predicate IsDigits(s: string)
  {
    forall i :: 0 <= i < |s| ==> '0' <= s[i] <= '9'
  }

  /** The number a string of decimal digits denotes, read most significant digit first. */
  function DigitsValue(s: string): nat
    requires IsDigits(s)
    decreases |s|
  {
    if |s| == 0 then 0
    else DigitsValue(s[..|s| - 1]) * 10 + (s[|s| - 1] - '0') as int
  }

  /** `str(n)` for a non-negative int: decimal digits without a leading zero. */
  function NatToString(n: nat): (r: string)
    ensures |r| > 0 && IsDigits(r)
    ensures r[0] == '0' ==> r == "0"
    decreases n
  {
    if n < 10 then [DigitChar(n)]
    else NatToString(n / 10) + [DigitChar(n % 10)]
  }

  /** The digits of `str(n)` denote `n`. */
  lemma {:induction false} NatToStringValue(n: nat)
    ensures DigitsValue(NatToString(n)) == n
    decreases n
  {
    if n >= 10 {
      var r := NatToString(n);
      NatToStringValue(n / 10);
      assert r[..|r| - 1] == NatToString(n / 10);
    }
  }

  /** `str(i)` for any int: a minus sign exactly for negative numbers. */
  function IntToString(i: int): (r: string)
    ensures |r| > 0
    ensures r[0] == '-' <==> i < 0
  {
    if i < 0 then "-" + NatToString(-i) else NatToString(i)
  }

  /** `str(i)` denotes `i`: its digits, after the sign when negative, read back as `|i|`. */
  lemma IntToStringValue(i: int)
    ensures i >= 0 ==> IsDigits(IntToString(i)) && DigitsValue(IntToString(i)) == i
    ensures i < 0 ==> IsDigits(IntToString(i)[1..]) && DigitsValue(IntToString(i)[1..]) == -i
  {
    if i < 0 {
      NatToStringValue(-i);
      assert IntToString(i)[1..] == NatToString(-i);
    } else {
      NatToStringValue(i);
    }
  }
}

=== FILE: table.dfy ===
/** Turning a table of rows into one multi-segment document: the inner
    `index_df` of `CsvCrawler.index_dataframe`. */
module Table {
  import opened Common
  import opened Strings

  /** A non-missing cell value. */
  datatype Value = Text(s: string) | Number(n: int)

  /** A cell: `None` is pandas' missing value (NaN). */
  type Cell = Option<Value>

  /** One row, from column name to cell. */
  type Row = map<string, Cell>

  /** The rows of a data frame, in order. */
  type Frame = seq<Row>

  /** The row has every column in `cols`. */
  predicate HasKeys(row: Row, cols: seq<string>)
  {
    forall j :: 0 <= j < |cols| ==> cols[j] in row
  }

  /** Every row of `frame` has column `c`. */
  predicate HasColumn(frame: Frame, c: string)
  {
    forall i :: 0 <= i < |frame| ==> c in frame[i]
  }

  /** Every row of `frame` has every column in `cols`. */
  predicate HasColumns(frame: Frame, cols: seq<string>)
  {
    forall c :: c in cols ==> HasColumn(frame, c)
  }

  /** Python truthiness of a cell: NaN is truthy, so only the empty string
      and zero are skipped. */
  function Truthy(c: Cell): (r: bool)
    ensures !r <==> c == Some(Text("")) || c == Some(Number(0))
    ensures c.None? ==> r
  {
    match c
    case None => true
    case Some(Text(s)) => s != ""
    case Some(Number(n)) => n != 0
  }

  /** `str(x)` of a cell; NaN prints as `nan`. Only the empty string
      renders as the empty string, so every truthy cell renders non-empty. */
  function Render(c: Cell): (r: string)
    ensures r == "" <==> c == Some(Text(""))
    ensures Truthy(c) ==> |r| > 0
    ensures c.None? ==> r == "nan"
  {
    match c
    case None => "nan"
    case Some(Text(s)) => s
    case Some(Number(n)) => IntToString(n)
  }

  /** `[str(x) for x in row[cols] if x]`: the rendered truthy cells, in column order. */
  function TextPieces(row: Row, cols: seq<string>): (r: seq<string>)
    requires HasKeys(row, cols)
    ensures |r| <= |cols|
    ensures |r| == 0 <==> forall j :: 0 <= j < |cols| ==> !Truthy(row[cols[j]])
    decreases |cols|
  {
    if |cols| == 0 then []
    else
      var rest := TextPieces(row, cols[1..]);
      assert forall j :: 1 <= j < |cols| ==> cols[j] == cols[1..][j - 1];
      if Truthy(row[cols[0]]) then [Render(row[cols[0]])] + rest else rest
  }

  /** Every piece is the rendering of a truthy cell of one of the columns. */
  lemma {:induction false} TextPiecesAreTruthyCells(row: Row, cols: seq<string>)
    requires HasKeys(row, cols)
    ensures forall k :: 0 <= k < |TextPieces(row, cols)| ==>
      exists j :: 0 <= j < |cols| && Truthy(row[cols[j]]) && TextPieces(row, cols)[k] == Render(row[cols[j]])
    decreases |cols|
  {
    if |cols| > 0 {
      var r := TextPieces(row, cols);
      var rest := TextPieces(row, cols[1..]);
      TextPiecesAreTruthyCells(row, cols[1..]);
      forall k | 0 <= k < |TextPieces(row, cols)|
        ensures exists j :: 0 <= j < |cols| && Truthy(row[cols[j]]) && TextPieces(row, cols)[k] == Render(row[cols[j]])
      {
        if Truthy(row[cols[0]]) && k == 0 {
          assert r[0] == Render(row[cols[0]]);
          assert 0 < |cols| && Truthy(row[cols[0]]) && TextPieces(row, cols)[k] == Render(row[cols[0]]);
        } else {
          var k' := if Truthy(row[cols[0]]) then k - 1 else k;
          assert 0 <= k' < |rest| && r[k] == rest[k'];
          var j :| 0 <= j < |cols[1..]| && Truthy(row[cols[1..][j]]) && rest[k'] == Render(row[cols[1..][j]]);
          assert cols[1..][j] == cols[j + 1];
          assert 0 <= j + 1 < |cols| && Truthy(row[cols[j + 1]]) && TextPieces(row, cols)[k] == Render(row[cols[j + 1]]);
        }
      }
    } else {
      assert |TextPieces(row, cols)| == 0;
    }
  }

  /** The text of one row: its truthy text cells joined with ` - `, then one
      newline. (Unicode NFD normalisation is taken as the identity.) */
  function RowText(row: Row, textCols: seq<string>): (r: string)
    requires HasKeys(row, textCols)
    ensures |r| > 0 && r[|r| - 1] == '\n'
  {
    var body := Join(TextPieces(row, textCols), " - ");
    var r := body + "\n";
    assert r[..|r| - 1] == body;
    r
  }

  /** A row none of whose text cells is truthy yields just the newline. */
  lemma RowTextOfBlankRow(row: Row, textCols: seq<string>)
    requires HasKeys(row, textCols)
    requires forall j :: 0 <= j < |textCols| ==> !Truthy(row[textCols[j]])
    ensures RowText(row, textCols) == "\n"
  {
  }

  /** Putting column `c` in front of the text columns: a falsy cell changes
      nothing; a truthy one is rendered first, followed by ` - ` when some
      other piece follows. With `RowTextOfBlankRow` this pins down the text
      of every row. */
  lemma RowTextConsColumn(row: Row, c: string, textCols: seq<string>)
    requires c in row && HasKeys(row, textCols)
    ensures HasKeys(row, [c] + textCols)
    ensures !Truthy(row[c]) ==> RowText(row, [c] + textCols) == RowText(row, textCols)
    ensures Truthy(row[c]) && |TextPieces(row, textCols)| > 0 ==>
      RowText(row, [c] + textCols) == Render(row[c]) + " - " + RowText(row, textCols)
    ensures Truthy(row[c]) && |TextPieces(row, textCols)| == 0 ==>
      RowText(row, [c] + textCols) == Render(row[c]) + "\n"
  {
  }

  /** When no cell renders with a newline, the terminating newline is the
      only one in the row's text. */
  lemma RowTextHasOneNewline(row: Row, textCols: seq<string>)
    requires HasKeys(row, textCols)
    requires forall j :: 0 <= j < |textCols| ==> '\n' !in Render(row[textCols[j]])
    ensures var r := RowText(row, textCols); '\n' !in r[..|r| - 1]
  {
    var pieces := TextPieces(row, textCols);
    TextPiecesAreTruthyCells(row, textCols);
    forall k | 0 <= k < |pieces| ensures '\n' !in pieces[k] {
      var j :| 0 <= j < |textCols| && Truthy(row[textCols[j]]) && pieces[k] == Render(row[textCols[j]]);
    }
    JoinAvoidsChar(pieces, " - ", '\n');
  }

  /** `{c: row[c] for c in cols if not pd.isnull(row[c])}`: exactly the
      metadata columns whose cell is present, with that cell's value. */
  function RowMetadata(row: Row, cols: seq<string>): (md: map<string, Value>)
    requires HasKeys(row, cols)
    ensures forall c :: c in md <==> c in cols && row[c].Some?
    ensures forall c :: c in md ==> row[c] == Some(md[c])
    decreases |cols|
  {
    if |cols| == 0 then map[]
    else
      var c := cols[|cols| - 1];
      assert forall d :: d in cols <==> d in cols[..|cols| - 1] || d == c by {
        assert cols == cols[..|cols| - 1] + [c];
      }
      var md := RowMetadata(row, cols[..|cols| - 1]);
      if row[c].Some? then md[c := row[c].value] else md
  }

  /** `set(df[c])`, the distinct cells of column `c` (NaN counting once). */
  function ColumnCells(frame: Frame, c: string): set<Cell>
    requires HasColumn(frame, c)
  {
    set i | 0 <= i < |frame| :: frame[i][c]
  }

  /** The hoisting test as written: `len(df[c].unique()) == 1` and the first
      cell is not null. */
  predicate IsHoisted(frame: Frame, c: string)
    requires HasColumn(frame, c)
  {
    |ColumnCells(frame, c)| == 1 && 0 < |frame| && frame[0][c].Some?
  }

  /** Column `c` holds one and the same non-missing value in every row. */
  predicate ConstantColumn(frame: Frame, c: string)
    requires HasColumn(frame, c)
  {
    && 0 < |frame|
    && frame[0][c].Some?
    && forall i :: 0 <= i < |frame| ==> frame[i][c] == frame[0][c]
  }

  /** A set with one element has no two different members. */
  lemma SingletonMembers<T>(s: set<T>, a: T, b: T)
    requires |s| == 1 && a in s && b in s
    ensures a == b
  {
    assert |s - {a}| == |s| - 1 == 0;
    assert s - {a} == {};
    assert b !in s - {a};
  }

  /** The unique-count test hoists exactly the constant columns. */
  lemma {:induction false} HoistedIffConstant(frame: Frame, c: string)
    requires HasColumn(frame, c)
    ensures IsHoisted(frame, c) <==> ConstantColumn(frame, c)
  {
    var cells := ColumnCells(frame, c);
    if ConstantColumn(frame, c) {
      assert cells == {frame[0][c]} by {
        forall x | x in cells ensures x == frame[0][c] {
          var i :| 0 <= i < |frame| && frame[i][c] == x;
        }
        assert frame[0][c] in cells;
      }
    }
    if IsHoisted(frame, c) {
      forall i | 0 <= i < |frame| ensures frame[i][c] == frame[0][c] {
        assert frame[i][c] in cells;
        assert frame[0][c] in cells;
        SingletonMembers(cells, frame[i][c], frame[0][c]);
      }
    }
  }

  /** The document metadata: `source` is `csv`, and every metadata column
      that is constant over the frame is added with its value, in column
      order; a constant column named `source` overrides the default. */
  function DocMetadata(frame: Frame, cols: seq<string>): (md: map<string, Value>)
    requires HasColumns(frame, cols)
    ensures "source" in md
    ensures forall c :: c != "source" ==> (c in md <==> c in cols && ConstantColumn(frame, c))
    ensures forall c :: c in cols && ConstantColumn(frame, c) ==> md[c] == frame[0][c].value
    ensures md["source"] == if "source" in cols && ConstantColumn(frame, "source")
                            then frame[0]["source"].value else Text("csv")
    decreases |cols|
  {
    if |cols| == 0 then map["source" := Text("csv")]
    else
      var c := cols[|cols| - 1];
      assert forall d :: d in cols <==> d in cols[..|cols| - 1] || d == c by {
        assert cols == cols[..|cols| - 1] + [c];
      }
      var md := DocMetadata(frame, cols[..|cols| - 1]);
      HoistedIffConstant(frame, c);
      if IsHoisted(frame, c) then md[c := frame[0][c].value] else md
  }

  /** Which columns hold the text, the optional title and the metadata. */
  datatype Columns = Columns(text: seq<string>, title: Option<string>, metadata: seq<string>)

  /** `if title_column:` */
  predicate HasTitle(cols: Columns)
  {
    cols.title.Some? && cols.title.value != ""
  }

  /** The row carries every column the configuration names. */
  predicate RowCovers(row: Row, cols: Columns)
  {
    && HasKeys(row, cols.text)
    && HasKeys(row, cols.metadata)
    && (HasTitle(cols) ==> cols.title.value in row)
  }

  /** Every row carries every column the configuration names. */
  predicate Covers(frame: Frame, cols: Columns)
  {
    forall i :: 0 <= i < |frame| ==> RowCovers(frame[i], cols)
  }

  /** In a covered frame, each metadata column is a column of every row. */
  lemma CoversMetadata(frame: Frame, cols: Columns)
    requires Covers(frame, cols)
    ensures HasColumns(frame, cols.metadata)
  {
  }

  /** The arguments of one `index_segments` call; the indexer is modelled as
      handing back exactly what it was given. */
  datatype Segments = Segments(
    docId: string,
    texts: seq<string>,
    titles: Option<seq<string>>,
    metadatas: seq<map<string, Value>>,
    docTitle: string,
    docMetadata: map<string, Value>)

  /** `s` is the document `index_df(docId, frame)` submits: one text and one
      metadata map per row, in row order; per-row titles only when a title
      column is set and there is a row; the first title, or else the id, as
      document title; the hoisted document metadata. The frame must carry
      every configured column. */
  predicate Describes(s: Segments, cols: Columns, docId: string, frame: Frame)
  {
    && Covers(frame, cols)
    && s.docId == docId
    && |s.texts| == |frame|
    && (forall i :: 0 <= i < |frame| ==> s.texts[i] == RowText(frame[i], cols.text))
    && |s.metadatas| == |frame|
    && (forall i :: 0 <= i < |frame| ==> s.metadatas[i] == RowMetadata(frame[i], cols.metadata))
    && (s.titles.Some? <==> HasTitle(cols) && |frame| > 0)
    && (s.titles.Some? ==>
          && |s.titles.value| == |frame|
          && forall i :: 0 <= i < |frame| ==> s.titles.value[i] == Render(frame[i][cols.title.value]))
    && s.docTitle == (if HasTitle(cols) && |frame| > 0 then Render(frame[0][cols.title.value]) else docId)
    && HasColumns(frame, cols.metadata)
    && s.docMetadata == DocMetadata(frame, cols.metadata)
  }

  /** The texts the `iterrows` loop of `index_df` collects: one per row, in order. */
  method CollectTexts(cols: Columns, frame: Frame) returns (texts: seq<string>)
    requires Covers(frame, cols)
    ensures |texts| == |frame|
    ensures forall i :: 0 <= i < |frame| ==> texts[i] == RowText(frame[i], cols.text)
  {
    texts := [];
    var k := 0;
    while k < |frame|
      invariant k <= |frame| && |texts| == k
      invariant forall i :: 0 <= i < k ==> texts[i] == RowText(frame[i], cols.text)
    {
      assert RowCovers(frame[k], cols);
      ghost var before := texts;
      texts := texts + [RowText(frame[k], cols.text)];
      assert forall i :: 0 <= i < k ==> texts[i] == before[i];
      k := k + 1;
    }
  }

  /** The per-row metadata the `iterrows` loop of `index_df` collects. */
  method CollectMetadatas(cols: Columns, frame: Frame) returns (metadatas: seq<map<string, Value>>)
    requires Covers(frame, cols)
    ensures |metadatas| == |frame|
    ensures forall i :: 0 <= i < |frame| ==> metadatas[i] == RowMetadata(frame[i], cols.metadata)
  {
    metadatas := [];
    var k := 0;
    while k < |frame|
      invariant k <= |frame| && |metadatas| == k
      invariant forall i :: 0 <= i < k ==> metadatas[i] == RowMetadata(frame[i], cols.metadata)
    {
      assert RowCovers(frame[k], cols);
      ghost var before := metadatas;
      metadatas := metadatas + [RowMetadata(frame[k], cols.metadata)];
      assert forall i :: 0 <= i < k ==> metadatas[i] == before[i];
      k := k + 1;
    }
  }

  /** The titles the `iterrows` loop of `index_df` collects: one per row when
      a title column is set, none otherwise. */
  method CollectTitles(cols: Columns, frame: Frame) returns (titles: seq<string>)
    requires Covers(frame, cols)
    ensures |titles| == (if HasTitle(cols) then |frame| else 0)
    ensures HasTitle(cols) ==> forall i :: 0 <= i < |frame| ==> titles[i] == Render(frame[i][cols.title.value])
  {
    titles := [];
    if !HasTitle(cols) {
      return;
    }
    var title := cols.title.value;
    var k := 0;
    while k < |frame|
      invariant k <= |frame| && |titles| == k
      invariant forall i :: 0 <= i < k ==> titles[i] == Render(frame[i][title])
    {
      assert RowCovers(frame[k], cols);
      titles := titles + [Render(frame[k][title])];
      k := k + 1;
    }
  }

  /** `index_df(doc_id, df)`: collect the rows, then submit them as one
      document; an empty title list is passed as `None`. */
  method IndexDf(cols: Columns, docId: string, frame: Frame) returns (s: Segments)
    requires Covers(frame, cols)
    ensures Describes(s, cols, docId, frame)
  {
    var texts := CollectTexts(cols, frame);
    var titles := CollectTitles(cols, frame);
    var metadatas := CollectMetadatas(cols, frame);
    var titlesArg: Option<seq<string>> := if |titles| == 0 then None else Some(titles);
    var docTitle := match titlesArg
      case Some(ts) => ts[0]
      case None => docId;
    CoversMetadata(frame, cols);
    s := Segments(docId, texts, titlesArg, metadatas, docTitle, DocMetadata(frame, cols.metadata));
  }
}
